=== FILE: README.md ===
# UF Form Generator in Dafny

A model of the form generator of the UserFrosting Form Generator sprinkle
(`src/Form.php`) and of its checkbox element (`src/Element/Checkbox.php`),
with proofs of what they promise.

The `Form` object holds three things:

- a request schema, which is an ordered list of field definitions;
- the current values;
- an optional namespace.

`generate` walks the schema in order and handles each field as follows:

1. A field without a `form` sub-map is skipped.
2. A missing or null `type` defaults to `"text"`.
3. The type is resolved to an element class through `Str::studly` and `class_exists`. The fallback is `Text`.
4. The element is built under the namespaced name (`ns[name]`), with the value stored under the field's own name.
5. The element's parsed attribute map is put into an ordered collection.

The checkbox element merges its defaults underneath the caller's attributes:

- `class` is `js-icheck`;
- `name` is the element name;
- `id` is `field_` followed by the name, with `[` turned into `_` and `]` dropped;
- `binary` is `true`.

It then adds `checked="checked"` when `binary` is not strictly `false` and the current value is loosely equal to 1.
`array_merge` keeps every key of its second argument, so the caller's `type` stays in the checkbox output, after `binary` (`FormProperties.CheckboxEndToEnd`).

Modules, one per component:

- `Wrappers`: `Option` and `Result`.
- `OrderedMaps`: PHP arrays with string keys, as insertion-ordered maps.
  - `Put` is `$a[$k] = $v`: an existing key keeps its place and a new key is appended.
  - `PutAll` is a `foreach` of such writes.
  - `Merge` is `array_merge`.
- `Values`: the PHP values a schema holds, as the sum type `Value`. It also holds the coercion of a value passed to a `string` parameter, and the loose comparison `== 1`.
- `Strings`: single-character `str_replace` and Laravel's `Str::studly`.
- `CheckboxElement`: `Checkbox::applyTransformations`.
- `ElementRegistry`: the closed set of element kinds, `getElementClass`, and the dispatch of `parse()`.
- `FormGenerator`: the state of `Form`, its setters, `getValueForName`, `getNamespacedName`, and `generate`.
  - `GenerateSpec` is a reference definition of `generate` as a fold.
  - `Generate` is the loop, proved equal to `GenerateSpec`.
- `FormProperties`: what `generate` promises, stated against the schema and the data, plus the end-to-end examples.

On output keys, `Collection::put` lets the last write to a key win (`OrderedMaps.PutAllLastWins`). Within one call of `generate` that case never arises:

- schema field names are distinct;
- `getNamespacedName` is injective (`FormProperties.NamespacedNameInjective`).

So every field with a `form` entry keeps its own key (`FormProperties.GenerateKeys`).

A PHP `TypeError` is modelled as the `Failure` branch of a `Result`. It arises when an array or null reaches a `string` parameter: a field's `type` given to `getElementClass`, any value given to `setInputArgument` (`FormGenerator.SetInputArgumentCoerced`), and so `setOptions`' options. A bool or int reaching such a parameter is coerced to its string form (`false` to `""`).

`BaseInput`, which holds `parse()` and `getValue` for every element class, is not part of this model, and neither are the element classes other than `Checkbox`. `getValue`, and `parse()` of every kind other than the checkbox, are parameters of the model, held in the datatype `ElementRegistry.Elements`. For the checkbox, `parse()` is taken to run `applyTransformations()` and return the element's attributes. The checkbox calls `getValue` after the merge, so the model hands it the element's name and the merged attributes along with the value.

## Model

| member | source | states |
|---|---|---|
| `FormGenerator.NewForm` | src/Form.php:52-56 | A new form has the given schema and data and no namespace. |
| `FormGenerator.SetData` | src/Form.php:63-74 | Given a flat array, the current values become exactly that array; schema and namespace are unchanged. |
| `FormGenerator.SetValue` | src/Form.php:92-95 | `data[n]` becomes the string; every other data entry, the schema and the namespace are unchanged. |
| `FormGenerator.PutInputArgument` | src/Form.php:108-115 | On a schema field, `form[p]` becomes `v` (a `form` map is created if missing). The `form` map's keys keep their order, with `p` appended if it was new. The field's other `form` keys, its other keys, every other field, the schema's key order, data and namespace are unchanged. On a field not in the schema nothing changes and no error is raised. |
| `FormGenerator.SetInputArgument` | src/Form.php:106-116 | With its `string $value`, `setInputArgument` is that write of the string: a schema field's `form[p]` reads back as exactly the string given. |
| `FormGenerator.SetInputArgumentCoerced` | src/Form.php:106 | A call with any value: an array or null is a TypeError naming the field; a string is stored as is; `true` is stored as `"1"` and `false` as `""`. |
| `FormGenerator.SetOptions` | src/Form.php:126-135 | The corrected `setOptions`: the field's `form.options` becomes the option map. Data is unchanged without `selected`; with one, `data[n]` becomes the selected key. |
| `FormGenerator.SetOptionsAsWritten` | src/Form.php:126-135 | `setOptions` as written fails exactly when the option list is an array or null, with a TypeError naming the field. A scalar gets through: its string form is stored as `form.options`, and the selected key, if given, becomes the value. |
| `FormGenerator.SetFormNamespace` | src/Form.php:145-148 | Only the namespace changes. |
| `FormGenerator.GetValueForName` | src/Form.php:209-214 | There is a value exactly when the data has the name and it is not null (`isset`), and it is the stored value. |
| `FormGenerator.GetNamespacedName` | src/Form.php:223-230 | Without a namespace the name is unchanged; with one it is `ns`, `[`, the name, `]`. |
| `FormGenerator.ElementOf` | src/Form.php:177-180 | The element always has a non-null `type`. It is the caller's when set, otherwise `"text"`; every other key is unchanged. |
| `FormGenerator.KindOf` | src/Form.php:183 | Resolving a type fails exactly for an array (or null), which a `string` parameter refuses; a string type resolves through `getElementClass`. |
| `FormGenerator.Generate` | src/Form.php:156-200 | The loop computes the reference fold `GenerateSpec`: schema order, skip, put, and abort on the first failing field. |
| `OrderedMaps.OMap.Put` | src/Element/Checkbox.php:36 | `$a[$k] = $v`: `k` then reads `v` and every other key reads as before. An existing key keeps its place; a new key is appended at the end. |
| `OrderedMaps.Merge` | src/Element/Checkbox.php:27-32 | `array_merge`: the first map's keys in order, then the second's new keys in order; on a shared key the second map's value wins. |
| `OrderedMaps.PutAllKeys` | src/Form.php:196 | After a run of `put`s with distinct keys, the old keys keep their order and the new keys follow in write order. |
| `OrderedMaps.PutAllLastWins` | src/Form.php:196 | When several `put`s write one key, the last write is the value that remains. |
| `Values.StringArgument` | src/Form.php:239 | A value reaching a `string` parameter is refused exactly when it is null or an array. A string passes unchanged; an int passes as its decimal spelling, which reads back as the same int. |
| `Values.IntToStringRoundTrip` | src/Form.php:239 | The decimal spelling of an int parses back to the same int. |
| `Values.LooselyEqualsOne` | src/Element/Checkbox.php:35 | `== 1` holds only for a bool, int or string. An int is loosely 1 exactly when it is 1, and a bool exactly when it is `true`. A string is loosely 1 exactly when it spells one: optional `+`, zeros, then `1`. |
| `Values.IntegerStringOne` | src/Element/Checkbox.php:35 | A string reads as the integer 1 exactly when it is an optional `+`, zeros, then `1`. |
| `Strings.Studly` | src/Form.php:243 | `Str::studly` leaves no space, `-` or `_` and never lengthens the name. A name starting with a plain character starts with it upper-cased. |
| `Strings.StudlyOfWord` | src/Form.php:243 | `Str::studly` of one word without separators upper-cases its first letter and keeps the rest. |
| `Strings.StudlyJoin` | src/Form.php:243 | A `-`, `_` or space ends a word: the studly form of `word`, separator, rest is the studly word followed by the studly rest. For example, `check_box` gives `CheckBox`. |
| `ElementRegistry.KindNamed` | src/Form.php:246 | `class_exists` on the element namespace: the kind returned has exactly that class name, and none is returned only when no kind has it. |
| `ElementRegistry.ElementClass` | src/Form.php:239-251 | A kind whose class name is the studly type is the one returned; when no class has that name the result is `Text`. It never fails. |
| `ElementRegistry.Parse` | src/Form.php:186-196 | `new $elementClass(...)->parse()` by kind. A checkbox's attributes start with `class, name, id, binary` in that order; every other kind gives what its own `parse()` gives. |
| `ElementRegistry.ElementClassFindsEveryKind` | src/Form.php:243-250 | Every kind is found by its class name and by its lower-case type name, e.g. `checkbox` gives `Checkbox`. |
| `CheckboxElement.FieldId` | src/Element/Checkbox.php:30 | The id starts with `field_` and contains no bracket. |
| `CheckboxElement.FieldIdSinglePass` | src/Element/Checkbox.php:30 | The two `str_replace` passes equal a single pass over the name: `[` becomes `_`, `]` is dropped, every other character is kept. |
| `CheckboxElement.FieldIdOfNamespaced` | src/Element/Checkbox.php:30 | The id of `ns[name]` is `field_ns_name`; for example, `user[name]` gives `field_user_name`. |
| `CheckboxElement.Merged` | src/Element/Checkbox.php:27-32 | Keys are `class, name, id, binary`, then the caller's other keys in order. A key the caller set has the caller's value; any other key has the default. |
| `CheckboxElement.ApplyTransformations` | src/Element/Checkbox.php:25-38 | The result is the merge, with `checked` put exactly when the merged `binary` is not `false` and the value is loosely 1. |
| `CheckboxElement.CallerAttributesWin` | src/Element/Checkbox.php:27-32 | For `class`, `name`, `id` and `binary`, a value the caller set is kept. |
| `CheckboxElement.DefaultsFillIn` | src/Element/Checkbox.php:28-31 | Defaults for keys the caller left out: `class` is `js-icheck`, `name` is the element name, `id` is derived from the name, `binary` is `true`. |
| `CheckboxElement.CheckedRule` | src/Element/Checkbox.php:35-37 | `checked` is `"checked"` when the rule fires; otherwise it is exactly what the caller gave, or absent. |
| `CheckboxElement.CheckedExactly` | src/Element/Checkbox.php:35-37 | Without a caller `checked`, the result has `checked` if and only if `binary` is not `false` and the value is loosely 1. |
| `CheckboxElement.CheckedByValue` | src/Element/Checkbox.php:35-37 | With the default `binary`, `"1"` checks the box; `"0"` and a missing value do not. |
| `CheckboxElement.BinaryFalseNeverChecks` | src/Element/Checkbox.php:35 | With `binary` set to `false`, no value adds `checked`. |
| `CheckboxElement.OtherAttributesPassThrough` | src/Element/Checkbox.php:27-37 | Caller attributes other than the four defaults and `checked` pass through unchanged, and no other key is added. |
| `CheckboxElement.NoValueAdded` | src/Element/Checkbox.php:27-37 | The transformation never adds or changes a `value` attribute. |
| `CheckboxElement.ApplyTransformationsKeys` | src/Element/Checkbox.php:27-37 | The result's key order: the four defaults, the caller's other keys in order, then `checked` if the rule added it. |
| `CheckboxElement.ApplyTransformationsIdempotent` | src/Element/Checkbox.php:25-38 | Applying the transformation to its own result changes nothing. |
| `FormProperties.NamespaceRoundTrip` | src/Form.php:223-230 | `StripNamespace` recovers the field name from its namespaced name. |
| `FormProperties.NamespacedNameInjective` | src/Form.php:223-230 | Two fields share a namespaced name only if they are the same field, so two schema fields never write the same key. |
| `FormProperties.StepAtCases` | src/Form.php:163-192 | One pass skips exactly the fields without `form`, and aborts exactly on a field whose type is an array, naming that field. Any other pass emits under the namespaced name. |
| `FormProperties.GenerateKeys` | src/Form.php:161-196 | The output keys are the namespaced names of the fields that have a `form` entry, in schema order, each once. |
| `FormProperties.GenerateKeySet` | src/Form.php:164-175 | A key is in the output exactly when it is the namespaced name of a field with a `form` entry. |
| `FormProperties.GenerateSkipsFieldsWithoutForm` | src/Form.php:164-166 | A field's namespaced name is in the output if and only if the field has a `form` entry. |
| `FormProperties.GenerateNoFormIsEmpty` | src/Form.php:164-166 | If no field has a `form` entry, the output is empty. |
| `FormProperties.GenerateFailsExactly` | src/Form.php:183 | `generate` fails if and only if some field's `type` is an array. The error names the first such field in schema order. |
| `FormProperties.ScalarTypesNeverFail` | src/Form.php:239-251 | If no type is an array, `generate` succeeds: an unknown type never makes it fail. |
| `FormProperties.GenerateValues` | src/Form.php:169-196 | The output under a field's namespaced name is the element parsed as its resolved kind, with the namespaced name and the value stored under the field's own name. |
| `FormProperties.GenerateUnknownTypeIsText` | src/Form.php:245-248 | A type whose studly form names no element class is parsed as a `Text` input. |
| `FormProperties.GenerateDefaultTypeIsText` | src/Form.php:178-180 | A `form` without a type (or with a null type) is parsed as a `Text` input, with `type: "text"` added to its element. |
| `FormProperties.GenerateCheckbox` | src/Form.php:183-196 | A field whose type resolves to `Checkbox` comes out as the checkbox transformation of its element. The current value is what `getValue` gives for the namespaced name and the merged attributes. |
| `FormProperties.GenerateReadsOnlyFieldValues` | src/Form.php:172 | Two forms with the same schema and namespace, whose fields read the same values, generate the same result. |
| `FormProperties.GenerateIgnoresOtherData` | src/Form.php:172-175 | A data entry under a key that is not a field name never changes the output. This includes a namespaced name. |
| `FormProperties.ReadAfterSetValue` | src/Form.php:92-95 | After `setValue(n, v)`, field `n` reads `v` and every other field reads what it read before. |
| `FormProperties.GenerateSeesSetValue` | src/Form.php:92-95 | After `setValue(n, v)` on a field with `form`, `generate` parses that field with the value `v`. |
| `FormProperties.PutInputArgumentReachesElement` | src/Form.php:108-115 | After the write on a schema field, the element `generate` builds for it has `p = v`. For `type` this needs a non-null value. |
| `FormProperties.SetInputArgumentReachesElement` | src/Form.php:106-116 | After `setInputArgument(n, p, v)` on a schema field, the element `generate` builds for it has `p` set to the string `v`. |
| `FormProperties.BinaryFalseArgumentStillChecks` | src/Form.php:106 | `setInputArgument(n, 'binary', false)` succeeds and stores `""`. That is not strictly `false`, so the checkbox is still checked exactly when the value is loosely 1. |
| `FormProperties.SetOptionsFinding` | src/Form.php:129 | As written, `setOptions` with an option array raises a TypeError; the corrected version makes the options reach the field's element. |
| `FormProperties.CheckboxEndToEnd` | src/Element/Checkbox.php:27-37 | The checkbox end-to-end case is a field `{type: checkbox}` with value 1 and `getValue` returning it for that name. Its output is `class, name, id, binary, type, checked`, with `js-icheck`, the name, `field_` plus the name, `true`, `checkbox` and `checked`. |
| `FormProperties.NamespaceEndToEnd` | src/Form.php:175-180 | In namespace `user`, a field `name` with an empty `form` gives the single output key `user[name]`. |

## Left out

- `setData` is modelled for a flat array only (`FormGenerator.SetData`). Three things are left out:
  - the conversion of an Illuminate `Collection`, `Model` or `Repository`, which are foreign types;
  - the `InvalidArgumentException` for other inputs;
  - `setSchema`.
- The schema is a value here, where PHP shares one object. `setSchema` keeps the caller's `RequestSchemaRepository` handle (src/Form.php:83-86), and `setInputArgument` writes back into that object (src/Form.php:114). So in PHP, `setInputArgument` and `setOptions` also change the caller's schema and every other `Form` built on it. A later change the caller makes to that object is also seen by `generate`. The model gives each `Form` its own schema, and none of this aliasing is modelled.
- The schema's `has`, `get` and `set` are modelled as operations on flat keys. A dot-aware repository would read and write a dotted field name (src/Form.php:140) as a nested path; that is not modelled.
- The `RequestSchemaRepository` internals are not modelled. The schema is an ordered map of field definitions. Each definition keeps its `form` sub-map and an opaque rest that `generate` never reads.
- `BaseInput` and the element classes other than `Checkbox` are not part of this model. `getValue` and their `parse()` are parameters (`ElementRegistry.Elements`). No defaults are invented for them. `FormProperties.NamespaceEndToEnd`, `FormProperties.GenerateDefaultTypeIsText` and `FormProperties.GenerateUnknownTypeIsText` therefore state only what `generate` itself decides: which key, with what element and value. The `value` and `id` a `Text` input would add are not stated.
- The set of element classes is closed. `Form.php` names only `Text` and `Checkbox.php` defines only `Checkbox`; `Radio`, `Select` and `Textarea` are an assumption of this model. Because the set is closed, the `InvalidClassException` check (src/Form.php:190-192) can never fire, and it has no branch in the model.
- `ElementRegistry.KindNamed`: `class_exists` also finds any other class of the `Element` namespace, at least `BaseInput`, the parent of `Checkbox` (src/Element/Checkbox.php:20). The type `base_input` therefore instantiates `BaseInput` in PHP, which fails if that class is abstract. The model resolves it to `Text`.
- `FormProperties.ScalarTypesNeverFail`: for the same reason, a type naming `BaseInput` (or another class of that namespace outside the closed set) may make PHP fail where the model succeeds.
- `ElementRegistry.Parse`: `parse()` is inherited from `BaseInput`, which is not part of this model. The model assumes that for the checkbox it runs `applyTransformations()` and returns the resulting attributes. It assumes no other step adds or removes attributes.
- `ElementRegistry.ElementClass` matches class names exactly. PHP's `class_exists` ignores case for classes already loaded, so a type such as `CHECKBOX` may resolve to `Checkbox` in PHP while the model gives `Text`.
- `Values.LooselyEqualsOne` approximates PHP 8's `== 1`, under which a leading-numeric string such as `"1abc"` is not equal to 1; PHP 7 compares it as 1. Modelled: ints, booleans, null, arrays, and strings of an optional sign and decimal digits. Left out: surrounding whitespace, decimals and exponents (`"1.0"`, `"1e0"`), and floats and objects, which the value type does not contain.
- `Strings.Studly` follows the `ucwords` version of `Str::studly`, with ASCII upper-casing only. Multibyte case mapping is left out.
- `OrderedMaps.Merge` models `array_merge` on string keys only. PHP renumbers integer keys, and integer-like field names are not modelled.
- A `form` entry that is a scalar rather than an array is not modelled. A `form` entry that is null counts as missing, as `isset` treats it.
- Twig rendering and HTML output are external and not part of this model.
- `FormProperties.CheckboxEndToEnd` assumes `getValue` returns the stored 1 for the field's name whatever attributes it is given, since `BaseInput` is not part of this model.

## Findings

| source | as written | input that shows it | evidently intended | confidence | as-written member | corrected member |
|---|---|---|---|---|---|---|
| src/Form.php:129 | `setOptions` passes its options array to the `string $value` parameter of `setInputArgument`. PHP 7 and later, in coercive mode, refuse an array there. | `setOptions('color', ['r' => 'Red'])`, or `setOptions('color')` with the default `[]`: a TypeError is raised before anything changes. | Store the option array as the field's `form.options`, then set the value when a selected key is given. | high; not executed | `FormGenerator.SetOptionsAsWritten` | `FormGenerator.SetOptions` |

=== FILE: checkbox.dfy ===
/**
 * The checkbox element: its default attributes are merged underneath the
 * caller's attributes, and a `checked` marker replaces the `value`
 * attribute other elements carry.
 */
module CheckboxElement {
  import opened Wrappers
  import opened OrderedMaps
  import opened Values
  import opened Strings

  /** The keys the checkbox supplies defaults for, in the order it lists them. */
  const DefaultKeys: seq<string> := ["class", "name", "id", "binary"]

  /** The same keys as a set. */
  const DefaultKeySet: set<string> := set k | k in DefaultKeys

  const CheckboxClass: string := "js-icheck"

  /** `'field_' . str_replace(['[', ']'], ['_', ''], name)`. */
  function FieldId(name: string): (id: string)
    ensures |id| >= 6 && id[..6] == "field_"
    ensures '[' !in id && ']' !in id
  {
    "field_" + ReplaceChar(ReplaceChar(name, '[', "_"), ']', "")
  }

  /** The id character by character: '[' becomes '_', ']' is dropped, anything else is kept. */
  function IdChars(name: string): string
  {
    if name == [] then []
    else (if name[0] == '[' then "_" else if name[0] == ']' then "" else [name[0]]) + IdChars(name[1..])
  }

  /**
   * `str_replace` with arrays makes one pass per search character; because
   * the first replacement "_" holds no ']', the two passes equal one
   * character-by-character rewrite.
   */
  lemma {:induction false} FieldIdSinglePass(name: string)
    ensures FieldId(name) == "field_" + IdChars(name)
    decreases |name|
  {
    if name != [] {
      var c := name[0];
      var head := if c == '[' then "_" else [c];
      assert name == [c] + name[1..];
      ReplaceCharAppend([c], name[1..], '[', "_");
      assert ReplaceChar([c], '[', "_") == head;
      ReplaceCharAppend(head, ReplaceChar(name[1..], '[', "_"), ']', "");
      assert ReplaceChar(head, ']', "") == (if c == '[' then "_" else if c == ']' then "" else [c]);
      FieldIdSinglePass(name[1..]);
    }
  }

  /** The defaults of `applyTransformations`, before the caller's attributes are merged over them. */
  function Defaults(name: string): (d: Attrs)
    ensures d.Valid() && d.keys == DefaultKeys
  {
    OMap(DefaultKeys, map[
      "class" := Str(CheckboxClass),
      "name" := Str(name),
      "id" := Str(FieldId(name)),
      "binary" := Bool(true)])
  }

  lemma DefaultsLookups(name: string)
    ensures Defaults(name).Get("class") == Some(Str(CheckboxClass))
    ensures Defaults(name).Get("name") == Some(Str(name))
    ensures Defaults(name).Get("id") == Some(Str(FieldId(name)))
    ensures Defaults(name).Get("binary") == Some(Bool(true))
    ensures Defaults(name).entries.Keys == DefaultKeySet
    ensures forall k :: k in DefaultKeys <==> k in DefaultKeySet
  {
  }

  /** The `binary` attribute after the merge: the caller's, or the default `true`. */
  function BinaryOf(element: Attrs): Value
  {
    element.Get("binary").GetOr(Bool(true))
  }

  /** `$this->element['binary'] !== false && $this->getValue() == 1`. */
  predicate MarksChecked(element: Attrs, current: Value)
  {
    BinaryOf(element) != Bool(false) && LooselyEqualsOne(current)
  }

  /** The caller's attributes merged over the defaults, before the `checked` rule. */
  function Merged(name: string, element: Attrs): (m: Attrs)
    requires element.Valid()
    ensures m.Valid()
    ensures m.keys == DefaultKeys + Without(element.keys, DefaultKeySet)
    ensures forall k :: element.Has(k) ==> m.Get(k) == element.Get(k)
    ensures forall k :: !element.Has(k) ==> m.Get(k) == Defaults(name).Get(k)
  {
    DefaultsLookups(name);
    Merge(Defaults(name), element)
  }

  lemma MergedChecked(name: string, element: Attrs)
    requires element.Valid()
    ensures Merged(name, element).Has("checked") <==> element.Has("checked")
  {
    DefaultsLookups(name);
    assert "checked" !in DefaultKeySet;
  }

  lemma MergedBinary(name: string, element: Attrs)
    requires element.Valid()
    ensures Merged(name, element).Get("binary") == Some(BinaryOf(element))
  {
    DefaultsLookups(name);
  }

  /**
   * `Checkbox::applyTransformations`: the caller's attributes `element`
   * merged over the defaults for the (namespaced) field `name`, then marked
   * checked when the current value `current` (what `getValue()` returns)
   * calls for it.
   */
  function ApplyTransformations(name: string, element: Attrs, current: Value): (r: Attrs)
    requires element.Valid()
    ensures r.Valid()
    ensures MarksChecked(element, current) ==> r == Merged(name, element).Put("checked", Str("checked"))
    ensures !MarksChecked(element, current) ==> r == Merged(name, element)
  {
    var merged := Merged(name, element);
    MergedBinary(name, element);
    if merged.Get("binary") != Some(Bool(false)) && LooselyEqualsOne(current) then
      merged.Put("checked", Str("checked"))
    else
      merged
  }

  /** For each default key, an attribute the caller set is kept as the caller set it. */
  lemma CallerAttributesWin(name: string, element: Attrs, current: Value, k: string)
    requires element.Valid() && k in DefaultKeySet && element.Has(k)
    ensures ApplyTransformations(name, element, current).Get(k) == element.Get(k)
  {
    assert k != "checked";
  }

  lemma DefaultClass(name: string, element: Attrs, current: Value)
    requires element.Valid() && !element.Has("class")
    ensures ApplyTransformations(name, element, current).Get("class") == Some(Str(CheckboxClass))
  {
    DefaultsLookups(name);
  }

  lemma DefaultName(name: string, element: Attrs, current: Value)
    requires element.Valid() && !element.Has("name")
    ensures ApplyTransformations(name, element, current).Get("name") == Some(Str(name))
  {
    DefaultsLookups(name);
  }

  lemma DefaultId(name: string, element: Attrs, current: Value)
    requires element.Valid() && !element.Has("id")
    ensures ApplyTransformations(name, element, current).Get("id") == Some(Str(FieldId(name)))
  {
    DefaultsLookups(name);
  }

  lemma DefaultBinary(name: string, element: Attrs, current: Value)
    requires element.Valid() && !element.Has("binary")
    ensures ApplyTransformations(name, element, current).Get("binary") == Some(Bool(true))
  {
    DefaultsLookups(name);
  }

  /** A default key the caller did not set gets the checkbox's default. */
  lemma DefaultsFillIn(name: string, element: Attrs, current: Value)
    requires element.Valid()
    ensures var r := ApplyTransformations(name, element, current);
      && (!element.Has("class") ==> r.Get("class") == Some(Str(CheckboxClass)))
      && (!element.Has("name") ==> r.Get("name") == Some(Str(name)))
      && (!element.Has("id") ==> r.Get("id") == Some(Str(FieldId(name))))
      && (!element.Has("binary") ==> r.Get("binary") == Some(Bool(true)))
  {
    if !element.Has("class") { DefaultClass(name, element, current); }
    if !element.Has("name") { DefaultName(name, element, current); }
    if !element.Has("id") { DefaultId(name, element, current); }
    if !element.Has("binary") { DefaultBinary(name, element, current); }
  }

  /**
   * The `checked` rule: the marker is set when the merged `binary` is not
   * strictly `false` and the current value is loosely one; otherwise
   * `checked` is whatever the caller gave, or absent.
   */
  lemma CheckedRule(name: string, element: Attrs, current: Value)
    requires element.Valid()
    ensures var r := ApplyTransformations(name, element, current);
      && (MarksChecked(element, current) ==> r.Get("checked") == Some(Str("checked")))
      && (!MarksChecked(element, current) ==> r.Get("checked") == element.Get("checked"))
  {
    DefaultsLookups(name);
    assert "checked" !in DefaultKeySet;
  }

  /** Every other attribute of the caller passes through unchanged, and no other is added. */
  lemma OtherAttributesPassThrough(name: string, element: Attrs, current: Value, k: string)
    requires element.Valid() && k !in DefaultKeySet && k != "checked"
    ensures ApplyTransformations(name, element, current).Get(k) == element.Get(k)
  {
    DefaultsLookups(name);
  }

  /** The keys after the defaults: the caller's other keys in order, then `checked` if the rule added it. */
  function ExtraKeys(element: Attrs, current: Value): seq<string>
  {
    Without(element.keys, DefaultKeySet)
    + (if MarksChecked(element, current) && !element.Has("checked") then ["checked"] else [])
  }

  /** The result lists the default keys first, then the extra keys. */
  lemma ApplyTransformationsKeys(name: string, element: Attrs, current: Value)
    requires element.Valid()
    ensures ApplyTransformations(name, element, current).keys == DefaultKeys + ExtraKeys(element, current)
  {
    MergedChecked(name, element);
    ConcatAssoc(DefaultKeys, Without(element.keys, DefaultKeySet),
                if MarksChecked(element, current) && !element.Has("checked") then ["checked"] else []);
  }

  /** Without a caller-supplied `checked`, the marker is present exactly when the rule asks for it. */
  lemma CheckedExactly(name: string, element: Attrs, current: Value)
    requires element.Valid() && !element.Has("checked")
    ensures ApplyTransformations(name, element, current).Has("checked")
            <==> BinaryOf(element) != Bool(false) && LooselyEqualsOne(current)
  {
    CheckedRule(name, element, current);
  }

  /** The transformation never adds a `value` attribute. */
  lemma NoValueAdded(name: string, element: Attrs, current: Value)
    requires element.Valid()
    ensures ApplyTransformations(name, element, current).Get("value") == element.Get("value")
  {
    OtherAttributesPassThrough(name, element, current, "value");
  }

  lemma ReapplyMerged(name: string, element: Attrs, current: Value)
    requires element.Valid()
    ensures Merged(name, ApplyTransformations(name, element, current)) == ApplyTransformations(name, element, current)
  {
    ApplyTransformationsKeys(name, element, current);
    MergeUnderPrefix(Defaults(name), ApplyTransformations(name, element, current), ExtraKeys(element, current));
  }

  lemma ReapplyBinary(name: string, element: Attrs, current: Value)
    requires element.Valid()
    ensures BinaryOf(ApplyTransformations(name, element, current)) == BinaryOf(element)
  {
    if element.Has("binary") {
      CallerAttributesWin(name, element, current, "binary");
    } else {
      DefaultBinary(name, element, current);
    }
  }

  /** Applying the transformation to its own result changes nothing. */
  lemma ApplyTransformationsIdempotent(name: string, element: Attrs, current: Value)
    requires element.Valid()
    ensures ApplyTransformations(name, ApplyTransformations(name, element, current), current)
            == ApplyTransformations(name, element, current)
  {
    var r := ApplyTransformations(name, element, current);
    ReapplyMerged(name, element, current);
    ReapplyBinary(name, element, current);
    if MarksChecked(element, current) {
      CheckedRule(name, element, current);
      PutSame(r, "checked", Str("checked"));
    }
  }

  /**
   * The id of a namespaced name whose parts hold no brackets joins the parts
   * with an underscore: `user[name]` gives `field_user_name`.
   */
  lemma FieldIdOfNamespaced(namespace: string, name: string)
    requires '[' !in namespace && ']' !in namespace && '[' !in name && ']' !in name
    ensures FieldId(namespace + "[" + name + "]") == "field_" + namespace + "_" + name
  {
    var key := namespace + "[" + name + "]";
    var inner := "[" + name + "]";
    assert IdChars(namespace + inner) == namespace + ("_" + name) by {
      IdCharsBracketed(name);
      IdCharsPlain(namespace);
      IdCharsAppend(namespace, inner);
    }
    assert key == namespace + inner;
    FieldIdSinglePass(key);
    assert "field_" + (namespace + ("_" + name)) == "field_" + namespace + "_" + name;
  }

  lemma IdCharsBracketed(name: string)
    requires '[' !in name && ']' !in name
    ensures IdChars("[" + name + "]") == "_" + name
  {
    IdCharsAppend("[" + name, "]");
    IdCharsAppend("[", name);
    IdCharsPlain(name);
    assert IdChars("]") == "";
    assert IdChars("[") == "_";
  }

  /** The id of a name without brackets is the name after the prefix. */
  lemma FieldIdOfPlain(name: string)
    requires '[' !in name && ']' !in name
    ensures FieldId(name) == "field_" + name
  {
    FieldIdSinglePass(name);
    IdCharsPlain(name);
  }

  lemma {:induction false} IdCharsAppend(a: string, b: string)
    ensures IdChars(a + b) == IdChars(a) + IdChars(b)
    decreases |a|
  {
    if a == [] {
      assert a + b == b;
    } else {
      var c := a[0];
      var head := if c == '[' then "_" else if c == ']' then "" else [c];
      assert (a + b)[0] == c;
      assert (a + b)[1..] == a[1..] + b;
      IdCharsAppend(a[1..], b);
      assert IdChars(a + b) == head + (IdChars(a[1..]) + IdChars(b));
      assert head + (IdChars(a[1..]) + IdChars(b)) == (head + IdChars(a[1..])) + IdChars(b);
    }
  }

  lemma {:induction false} IdCharsPlain(s: string)
    requires '[' !in s && ']' !in s
    ensures IdChars(s) == s
    decreases |s|
  {
    if s != [] {
      assert s[0] in s;
      assert forall x :: x in s[1..] ==> x in s;
      IdCharsPlain(s[1..]);
      assert [s[0]] + s[1..] == s;
    }
  }

  /**
   * With the default `binary`, the string "1" checks the box and "0" or a
   * missing value does not.
   */
  lemma CheckedByValue(name: string, element: Attrs)
    requires element.Valid() && !element.Has("checked") && !element.Has("binary")
    ensures ApplyTransformations(name, element, Str("1")).Has("checked")
    ensures !ApplyTransformations(name, element, Str("0")).Has("checked")
    ensures !ApplyTransformations(name, element, Null).Has("checked")
  {
    OneAndZero();
    CheckedExactly(name, element, Str("1"));
    CheckedExactly(name, element, Str("0"));
    CheckedExactly(name, element, Null);
  }

  /** With `binary` set to `false`, no value checks the box. */
  lemma BinaryFalseNeverChecks(name: string, element: Attrs, current: Value)
    requires element.Valid() && !element.Has("checked") && element.Get("binary") == Some(Bool(false))
    ensures !ApplyTransformations(name, element, current).Has("checked")
  {
    CheckedExactly(name, element, current);
  }
}

=== FILE: element_registry.dfy ===
/**
 * The element kinds the generator can instantiate, the lookup from a
 * schema `type` to a kind (`getElementClass`), and the dispatch of
 * `parse()` to the kind's behaviour.
 */
module ElementRegistry {
  import opened Wrappers
  import opened Values
  import opened Strings
  import CheckboxElement

  /** The element classes of the `Element` namespace. */
  datatype Kind = Checkbox | Radio | Select | Text | Textarea

  /** The short class name of each kind. */
  function ClassName(k: Kind): string
  {
    match k
    case Checkbox => "Checkbox"
    case Radio => "Radio"
    case Select => "Select"
    case Text => "Text"
    case Textarea => "Textarea"
  }

  /** `class_exists` on the `Element` namespace: the kind whose class has this exact short name. */
  function KindNamed(cls: string): (r: Option<Kind>)
    ensures r.Some? ==> ClassName(r.value) == cls
    ensures r.None? ==> forall k :: ClassName(k) != cls
  {
    if cls == "Checkbox" then Some(Checkbox)
    else if cls == "Radio" then Some(Radio)
    else if cls == "Select" then Some(Select)
    else if cls == "Text" then Some(Text)
    else if cls == "Textarea" then Some(Textarea)
    else None
  }

  /**
   * `getElementClass`: the class named by the studly form of the type, or
   * `Text` when there is none. It is total: no type string makes it fail.
   */
  function ElementClass(typeName: string): (k: Kind)
    ensures k != Text ==> ClassName(k) == Studly(typeName)
    ensures (forall j :: ClassName(j) != Studly(typeName)) ==> k == Text
    ensures ClassName(k) == Studly(typeName) || k == Text
    ensures forall j :: ClassName(j) == Studly(typeName) ==> k == j
  {
    KindNamed(Studly(typeName)).GetOr(Text)
  }

  /** The type name a schema conventionally uses for each kind. */
  function TypeName(k: Kind): string
  {
    match k
    case Checkbox => "checkbox"
    case Radio => "radio"
    case Select => "select"
    case Text => "text"
    case Textarea => "textarea"
  }

  lemma ClassNamesArePlain(k: Kind)
    ensures |ClassName(k)| > 0
    ensures forall i :: 0 <= i < |ClassName(k)| ==> IsPlain(ClassName(k)[i])
    ensures forall i :: 0 <= i < |TypeName(k)| ==> IsPlain(TypeName(k)[i])
    ensures |TypeName(k)| > 0 && TypeName(k)[1..] == ClassName(k)[1..]
    ensures ToUpper(TypeName(k)[0]) == ClassName(k)[0] == ToUpper(ClassName(k)[0])
  {
  }

  /** Every kind is found both by its class name and by its lower-case type name. */
  lemma ElementClassFindsEveryKind(k: Kind)
    ensures ElementClass(ClassName(k)) == k
    ensures ElementClass(TypeName(k)) == k
  {
    ClassNamesArePlain(k);
    StudlyOfWord(ClassName(k));
    StudlyOfWord(TypeName(k));
    assert [ClassName(k)[0]] + ClassName(k)[1..] == ClassName(k);
  }

  /**
   * What `parse()` does for the kinds this model leaves abstract: `getValue` of
   * the shared base element, and the whole transformation of every kind
   * other than the checkbox. Both are total functions of their inputs;
   * `getValue` sees the element's name, its attributes as they stand when it
   * is called, and the value handed to the constructor.
   */
  datatype Elements = Elements(
    getValue: (string, Attrs, Option<Value>) -> Value,
    parseOther: (Kind, string, Attrs, Option<Value>) -> Attrs)

  /**
   * `(new $elementClass($name, $element, $value))->parse()`: a checkbox
   * applies its own transformation to the value `getValue` resolves, which
   * runs after the defaults have been merged into the element; every other
   * kind is left to `parseOther`.
   */
  function Parse(es: Elements, kind: Kind, name: string, element: Attrs, value: Option<Value>): (r: Attrs)
    requires element.Valid()
    ensures kind == Checkbox ==> r.Valid() && |r.keys| >= 4 && r.keys[..4] == CheckboxElement.DefaultKeys
    ensures kind != Checkbox ==> r == es.parseOther(kind, name, element, value)
  {
    if kind == Checkbox then
      var current := es.getValue(name, CheckboxElement.Merged(name, element), value);
      CheckboxElement.ApplyTransformationsKeys(name, element, current);
      CheckboxElement.ApplyTransformations(name, element, current)
    else es.parseOther(kind, name, element, value)
  }
}

=== FILE: form.dfy ===
/**
 * The `Form` class: its state (schema, current values, namespace), the
 * setters that change that state, and `generate`, which turns the schema
 * into the attribute maps a template renders.
 */
module FormGenerator {
  import opened Wrappers
  import opened OrderedMaps
  import opened Values
  import opened ElementRegistry

  /**
   * One schema field: its `form` sub-map when that is set and not null, and
   * the field's other keys (validators, labels, ...), which the generator
   * never reads.
   */
  datatype FieldDef = FieldDef(form: Option<Attrs>, other: Attrs)

  /** The schema: field definitions in declaration order. */
  type Schema = OMap<FieldDef>

  /** The PHP TypeError raised when a `string` parameter receives an array or null. */
  datatype FormError = TypeError(inputName: string)

  /** The state of a `Form` object. */
  datatype Form = Form(schema: Schema, data: map<string, Value>, namespace: string)

  ghost predicate ValidField(d: FieldDef)
  {
    (d.form.Some? ==> d.form.value.Valid()) && d.other.Valid()
  }

  /** Every ordered map in the state lists its keys once. */
  ghost predicate Valid(f: Form)
  {
    && f.schema.Valid()
    && forall n :: n in f.schema.entries ==> ValidField(f.schema.entries[n])
  }

  /** `new Form($schema, $data)` with `$data` already a flat array: no namespace yet. */
  function NewForm(schema: Schema, data: map<string, Value>): (f: Form)
    ensures f.namespace == ""
    ensures f.schema == schema && f.data == data
  {
    Form(schema, data, "")
  }

  /** `setData` for a flat array: replaces every current value and nothing else. */
  function SetData(f: Form, data: map<string, Value>): (r: Form)
    ensures r.data == data
    ensures r.schema == f.schema && r.namespace == f.namespace
  {
    f.(data := data)
  }

  /** `setValue`: the value of `inputName` becomes `value`; nothing else changes. */
  function SetValue(f: Form, inputName: string, value: string): (r: Form)
    ensures inputName in r.data && r.data[inputName] == Str(value)
    ensures forall k :: k != inputName ==> (k in r.data <==> k in f.data)
    ensures forall k :: k != inputName && k in f.data ==> r.data[k] == f.data[k]
    ensures r.schema == f.schema && r.namespace == f.namespace
  {
    f.(data := f.data[inputName := Str(value)])
  }

  /** The `form` sub-map of a field, empty when the field has none. */
  function FormOf(d: FieldDef): Attrs
  {
    d.form.GetOr(Empty())
  }

  /**
   * The write `setInputArgument` performs: when the schema has the field, its
   * `form[property]` is forced to `value` (creating the `form` sub-map if
   * needed) and written back; otherwise nothing happens and no error is
   * raised.
   */
  function PutInputArgument(f: Form, inputName: string, property: string, value: Value): (r: Form)
    requires Valid(f)
    ensures Valid(r)
    ensures inputName !in f.schema.entries ==> r == f
    ensures r.data == f.data && r.namespace == f.namespace
    ensures r.schema.keys == f.schema.keys
    ensures forall n :: n != inputName ==> r.schema.Get(n) == f.schema.Get(n)
    ensures inputName in f.schema.entries ==>
      var before := f.schema.entries[inputName];
      var after := r.schema.entries[inputName];
      && after.other == before.other
      && after.form.Some?
      && after.form.value.Get(property) == Some(value)
      && (forall q :: q != property ==> after.form.value.Get(q) == FormOf(before).Get(q))
      && after.form.value.keys == FormOf(before).keys + (if FormOf(before).Has(property) then [] else [property])
  {
    if inputName in f.schema.entries then
      var def := f.schema.entries[inputName];
      var form := FormOf(def).Put(property, value);
      f.(schema := f.schema.Put(inputName, def.(form := Some(form))))
    else
      f
  }

  /**
   * `setInputArgument`, whose `value` parameter is a string: the field's
   * `form[property]` becomes that string; a field not in the schema is left
   * alone.
   */
  function SetInputArgument(f: Form, inputName: string, property: string, value: string): (r: Form)
    requires Valid(f)
    ensures Valid(r)
    ensures r == PutInputArgument(f, inputName, property, Str(value))
    ensures inputName in f.schema.entries ==>
      r.schema.entries[inputName].form.Some? &&
      r.schema.entries[inputName].form.value.Get(property) == Some(Str(value))
  {
    PutInputArgument(f, inputName, property, Str(value))
  }

  /**
   * A call of `setInputArgument` with an arbitrary value, as PHP's coercive
   * mode performs it: an array or null is a TypeError before any change, a
   * bool or int is passed as its string form (`false` as `""`).
   */
  function SetInputArgumentCoerced(f: Form, inputName: string, property: string, value: Value): (r: Result<Form, FormError>)
    requires Valid(f)
    ensures r.Failure? <==> value.Arr? || value.Null?
    ensures r.Failure? ==> r.error == TypeError(inputName)
    ensures value.Str? ==> r == Success(SetInputArgument(f, inputName, property, value.s))
    ensures value == Bool(false) ==> r == Success(SetInputArgument(f, inputName, property, ""))
    ensures value == Bool(true) ==> r == Success(SetInputArgument(f, inputName, property, "1"))
  {
    match StringArgument(value)
    case None => Failure(TypeError(inputName))
    case Some(s) => Success(SetInputArgument(f, inputName, property, s))
  }

  /**
   * `setOptions` as intended: the option map becomes the field's `options`
   * argument and, when a selected key is given, that key becomes the field's
   * value.
   */
  function SetOptions(f: Form, inputName: string, options: Attrs, selected: Option<string>): (r: Form)
    requires Valid(f)
    ensures Valid(r)
    ensures r.schema == PutInputArgument(f, inputName, "options", Arr(options)).schema
    ensures inputName in f.schema.entries ==>
      r.schema.entries[inputName].form.Some? &&
      r.schema.entries[inputName].form.value.Get("options") == Some(Arr(options))
    ensures selected.None? ==> r.data == f.data
    ensures selected.Some? ==> r.data == f.data[inputName := Str(selected.value)]
    ensures r.namespace == f.namespace
  {
    var g := PutInputArgument(f, inputName, "options", Arr(options));
    if selected.Some? then SetValue(g, inputName, selected.value) else g
  }

  /**
   * `setOptions` as written: the option array is handed to the `string`
   * parameter of `setInputArgument`, so every array (and null) raises a
   * TypeError before anything changes; only a scalar gets through, stored
   * as the `options` argument in its string form.
   */
  function SetOptionsAsWritten(f: Form, inputName: string, data: Value, selected: Option<string>): (r: Result<Form, FormError>)
    requires Valid(f)
    ensures r.Failure? <==> data.Arr? || data.Null?
    ensures r.Failure? ==> r == Failure(TypeError(inputName))
    ensures r.Success? ==> r.value.data == (if selected.Some? then f.data[inputName := Str(selected.value)] else f.data)
    ensures data.Str? ==> r.value.schema == SetInputArgument(f, inputName, "options", data.s).schema
    ensures r.Success? ==> r.value.schema == SetInputArgument(f, inputName, "options", StringArgument(data).value).schema
  {
    match SetInputArgumentCoerced(f, inputName, "options", data)
    case Failure(e) => Failure(e)
    case Success(g) => Success(if selected.Some? then SetValue(g, inputName, selected.value) else g)
  }

  /** `setFormNamespace`: only the namespace changes. */
  function SetFormNamespace(f: Form, namespace: string): (r: Form)
    ensures r.namespace == namespace
    ensures r.schema == f.schema && r.data == f.data
  {
    f.(namespace := namespace)
  }

  /**
   * `getValueForName`: the value stored under the field's own name; a
   * missing entry and an entry holding null (`isset` is false for both)
   * give no value.
   */
  function GetValueForName(f: Form, name: string): (r: Option<Value>)
    ensures r.Some? <==> name in f.data && f.data[name] != Null
    ensures r.Some? ==> r.value == f.data[name]
  {
    if name in f.data && f.data[name] != Null then Some(f.data[name]) else None
  }

  /** `getNamespacedName`: the name itself without a namespace, `namespace[name]` with one. */
  function GetNamespacedName(namespace: string, name: string): (r: string)
    ensures namespace == "" ==> r == name
    ensures namespace != "" ==>
      && |r| == |namespace| + |name| + 2
      && r[..|namespace|] == namespace && r[|namespace|] == '['
      && r[|namespace| + 1..|r| - 1] == name && r[|r| - 1] == ']'
  {
    if namespace != "" then namespace + "[" + name + "]" else name
  }

  /** The field name inside a namespaced key: the inverse of `GetNamespacedName`. */
  function StripNamespace(namespace: string, key: string): Option<string>
  {
    if namespace == "" then Some(key)
    else if |key| >= |namespace| + 2 && key[..|namespace|] == namespace
         && key[|namespace|] == '[' && key[|key| - 1] == ']'
    then Some(key[|namespace| + 1..|key| - 1])
    else None
  }

  /** `$element['type']` after the default: a missing or null type becomes "text". */
  function ElementOf(form: Attrs): (element: Attrs)
    requires form.Valid()
    ensures element.Valid()
    ensures element.Has("type") && element.entries["type"] != Null
    ensures form.Has("type") && form.entries["type"] != Null ==> element == form
    ensures !(form.Has("type") && form.entries["type"] != Null) ==> element.Get("type") == Some(Str("text"))
    ensures forall k :: k != "type" ==> element.Get(k) == form.Get(k)
  {
    if form.Has("type") && form.entries["type"] != Null then form
    else form.Put("type", Str("text"))
  }

  /**
   * `getElementClass($element['type'])` for the field `inputName`: the type
   * reaches a `string` parameter, so an array (or null) is a TypeError and
   * any scalar is looked up by its string form, falling back to `Text`.
   */
  function KindOf(inputName: string, typeValue: Value): (r: Result<Kind, FormError>)
    ensures r.Failure? <==> typeValue.Arr? || typeValue.Null?
    ensures typeValue.Str? ==> r == Success(ElementClass(typeValue.s))
  {
    match StringArgument(typeValue)
    case None => Failure(TypeError(inputName))
    case Some(s) => Success(ElementClass(s))
  }

  /** What one pass of the `generate` loop does with a field. */
  datatype Step = Skip | Emit(key: string, attrs: Attrs) | Abort(error: FormError)

  /**
   * One pass of the `generate` loop for the field `name` with definition
   * `def`: skip a field without `form`; otherwise default the type, resolve
   * the element kind, and parse the element under the namespaced name with
   * the value stored under the field's own name.
   */
  function FieldStep(f: Form, es: Elements, name: string, def: FieldDef): Step
    requires ValidField(def)
  {
    match def.form
    case None => Skip
    case Some(form) =>
      var element := ElementOf(form);
      var key := GetNamespacedName(f.namespace, name);
      match KindOf(name, element.entries["type"])
      case Failure(e) => Abort(e)
      case Success(kind) => Emit(key, Parse(es, kind, key, element, GetValueForName(f, name)))
  }

  /** The step for a name of the schema (the loop only visits those). */
  function StepAt(f: Form, es: Elements, name: string): Step
    requires Valid(f)
  {
    if name in f.schema.entries then FieldStep(f, es, name, f.schema.entries[name]) else Skip
  }

  /** The run so far after one more pass: an error stays, a skip adds nothing. */
  function Advance(acc: Result<seq<(string, Attrs)>, FormError>, step: Step): Result<seq<(string, Attrs)>, FormError>
  {
    match acc
    case Failure(e) => Failure(e)
    case Success(pairs) =>
      match step
      case Skip => Success(pairs)
      case Emit(key, attrs) => Success(pairs + [(key, attrs)])
      case Abort(e) => Failure(e)
  }

  /**
   * The pairs `generate` puts into its collection for the fields `names`,
   * in order, or the error of the first field that fails.
   */
  function Steps(f: Form, es: Elements, names: seq<string>): Result<seq<(string, Attrs)>, FormError>
    requires Valid(f)
    decreases |names|
  {
    if names == [] then Success([])
    else Advance(Steps(f, es, names[..|names| - 1]), StepAt(f, es, names[|names| - 1]))
  }

  /** The reference result of `generate`: every emitted pair put into an empty collection. */
  function GenerateSpec(f: Form, es: Elements): Result<OMap<Attrs>, FormError>
    requires Valid(f)
  {
    match Steps(f, es, f.schema.keys)
    case Failure(e) => Failure(e)
    case Success(pairs) => Success(PutAll(Empty(), pairs))
  }

  /** Once a prefix of the fields fails, the whole run fails with the same error. */
  lemma {:induction false} StepsFailureSticks(f: Form, es: Elements, names: seq<string>, i: nat)
    requires Valid(f)
    requires i <= |names| && Steps(f, es, names[..i]).Failure?
    ensures Steps(f, es, names) == Steps(f, es, names[..i])
    decreases |names| - i
  {
    if i < |names| {
      var n := |names| - 1;
      if i == n {
        assert names[..i] == names[..n];
      } else {
        assert names[..n][..i] == names[..i];
        StepsFailureSticks(f, es, names[..n], i);
      }
    } else {
      assert names[..i] == names;
    }
  }

  /**
   * `generate`: walks the schema in order and puts each emitted attribute
   * map into the collection under its key (see `FieldStep` for one pass of
   * the loop). A TypeError on some field's type aborts the whole call.
   */
  method Generate(f: Form, es: Elements) returns (r: Result<OMap<Attrs>, FormError>)
    requires Valid(f)
    ensures r == GenerateSpec(f, es)
  {
    var names := f.schema.keys;
    var form: OMap<Attrs> := Empty();
    ghost var emitted: seq<(string, Attrs)> := [];
    var i := 0;
    while i < |names|
      invariant 0 <= i <= |names|
      invariant Steps(f, es, names[..i]) == Success(emitted)
      invariant form == PutAll(Empty(), emitted)
    {
      var step := StepAt(f, es, names[i]);
      match step {
        case Skip =>
          SkipStep(f, es, names, i, emitted);
        case Abort(e) =>
          AbortStep(f, es, names, i, emitted, e);
          return Failure(e);
        case Emit(key, parsed) =>
          EmitStep(f, es, names, i, emitted, key, parsed);
          form := form.Put(key, parsed);
          emitted := emitted + [(key, parsed)];
      }
      i := i + 1;
    }
    assert names[..i] == names;
    return Success(form);
  }

  lemma StepsSnoc(f: Form, es: Elements, names: seq<string>, i: nat)
    requires Valid(f) && i < |names|
    ensures Steps(f, es, names[..i + 1]) == Advance(Steps(f, es, names[..i]), StepAt(f, es, names[i]))
  {
    assert names[..i + 1][..i] == names[..i];
  }

  /** A field that is skipped leaves the run as it was. */
  lemma SkipStep(f: Form, es: Elements, names: seq<string>, i: nat, emitted: seq<(string, Attrs)>)
    requires Valid(f) && i < |names|
    requires Steps(f, es, names[..i]) == Success(emitted)
    requires StepAt(f, es, names[i]) == Skip
    ensures Steps(f, es, names[..i + 1]) == Success(emitted)
  {
    StepsSnoc(f, es, names, i);
  }

  /** A field that emits adds its pair to the run and to the collection. */
  lemma EmitStep(f: Form, es: Elements, names: seq<string>, i: nat, emitted: seq<(string, Attrs)>, key: string, attrs: Attrs)
    requires Valid(f) && i < |names|
    requires Steps(f, es, names[..i]) == Success(emitted)
    requires StepAt(f, es, names[i]) == Emit(key, attrs)
    ensures Steps(f, es, names[..i + 1]) == Success(emitted + [(key, attrs)])
    ensures PutAll(Empty(), emitted + [(key, attrs)]) == PutAll(Empty(), emitted).Put(key, attrs)
  {
    StepsSnoc(f, es, names, i);
    PutAllSnoc(Empty(), emitted, key, attrs);
  }

  /** A field that fails makes the whole run fail with its error. */
  lemma AbortStep(f: Form, es: Elements, names: seq<string>, i: nat, emitted: seq<(string, Attrs)>, e: FormError)
    requires Valid(f) && i < |names|
    requires Steps(f, es, names[..i]) == Success(emitted)
    requires StepAt(f, es, names[i]) == Abort(e)
    ensures Steps(f, es, names) == Failure(e)
  {
    StepsSnoc(f, es, names, i);
    StepsFailureSticks(f, es, names, i + 1);
    assert names[..|names|] == names;
  }
}

=== FILE: form_properties.dfy ===
/**
 * What `generate` promises about its result, stated against the schema and
 * the form's state: which keys the collection has and in what order, what
 * each key holds, when the call fails, and which setters it reacts to.
 */
module FormProperties {
  import opened Wrappers
  import opened OrderedMaps
  import opened Values
  import opened Strings
  import opened ElementRegistry
  import opened FormGenerator

  /** The field `n` is in the schema and has a `form` entry. */
  predicate HasForm(f: Form, n: string)
  {
    n in f.schema.entries && f.schema.entries[n].form.Some?
  }

  /** The field's `type` after `generate` defaults it. */
  function TypeOf(f: Form, n: string): Value
    requires Valid(f) && HasForm(f, n)
  {
    ElementOf(f.schema.entries[n].form.value).entries["type"]
  }

  /** A field whose `type` cannot reach `getElementClass` as a string. */
  predicate BadType(f: Form, n: string)
    requires Valid(f)
  {
    HasForm(f, n) && TypeOf(f, n).Arr?
  }

  /** The name itself is recovered from its namespaced form. */
  lemma NamespaceRoundTrip(namespace: string, name: string)
    ensures StripNamespace(namespace, GetNamespacedName(namespace, name)) == Some(name)
  {
  }

  /** A key that strips to a name is that name's namespaced form. */
  lemma StripNamespaceInverse(namespace: string, key: string)
    requires StripNamespace(namespace, key).Some?
    ensures GetNamespacedName(namespace, StripNamespace(namespace, key).value) == key
  {
    if namespace != "" {
      var n := |namespace|;
      var name := key[n + 1..|key| - 1];
      assert key == key[..n] + [key[n]] + name + [key[|key| - 1]];
    }
  }

  /** Two fields never share a key in the same namespace. */
  lemma NamespacedNameInjective(namespace: string, a: string, b: string)
    ensures GetNamespacedName(namespace, a) == GetNamespacedName(namespace, b) <==> a == b
  {
    NamespaceRoundTrip(namespace, a);
    NamespaceRoundTrip(namespace, b);
  }

  /** The example of the namespace: field `name` in namespace `user` is `user[name]`. */
  lemma NamespaceExample()
    ensures GetNamespacedName("user", "name") == "user[name]"
    ensures GetNamespacedName("", "name") == "name"
  {
  }

  /** What one pass of the loop does, in terms of the field's definition. */
  lemma StepAtCases(f: Form, es: Elements, n: string)
    requires Valid(f)
    ensures StepAt(f, es, n).Skip? <==> !HasForm(f, n)
    ensures StepAt(f, es, n).Abort? <==> BadType(f, n)
    ensures StepAt(f, es, n).Abort? ==> StepAt(f, es, n).error == TypeError(n)
    ensures StepAt(f, es, n).Emit? ==> StepAt(f, es, n).key == GetNamespacedName(f.namespace, n)
  {
  }

  /** The namespaced names of the fields among `names` that have a `form` entry, in order. */
  function FormKeys(f: Form, names: seq<string>): seq<string>
    decreases |names|
  {
    if names == [] then []
    else
      var n := names[|names| - 1];
      FormKeys(f, names[..|names| - 1]) + (if HasForm(f, n) then [GetNamespacedName(f.namespace, n)] else [])
  }

  /** A field's key is listed exactly when the field is among the names and has a `form`. */
  lemma {:induction false} FormKeysHas(f: Form, names: seq<string>, n: string)
    ensures GetNamespacedName(f.namespace, n) in FormKeys(f, names) <==> n in names && HasForm(f, n)
    decreases |names|
  {
    if names != [] {
      var init := names[..|names| - 1];
      var last := names[|names| - 1];
      FormKeysHas(f, init, n);
      NamespacedNameInjective(f.namespace, n, last);
      assert names == init + [last];
    }
  }

  /** Every listed key is the namespaced name of a listed field with a `form`. */
  lemma {:induction false} FormKeysAreNamespaced(f: Form, names: seq<string>, k: string)
    requires k in FormKeys(f, names)
    ensures StripNamespace(f.namespace, k).Some?
    ensures StripNamespace(f.namespace, k).value in names
    ensures HasForm(f, StripNamespace(f.namespace, k).value)
    decreases |names|
  {
    var init := names[..|names| - 1];
    var last := names[|names| - 1];
    assert names == init + [last];
    if k in FormKeys(f, init) {
      FormKeysAreNamespaced(f, init, k);
    } else {
      NamespaceRoundTrip(f.namespace, last);
    }
  }

  /** Distinct field names give distinct keys. */
  lemma {:induction false} FormKeysDistinct(f: Form, names: seq<string>)
    requires Distinct(names)
    ensures Distinct(FormKeys(f, names))
    decreases |names|
  {
    if names != [] {
      var init := names[..|names| - 1];
      var last := names[|names| - 1];
      assert names == init + [last];
      DistinctSnoc(init, last);
      FormKeysDistinct(f, init);
      if HasForm(f, last) {
        FormKeysHas(f, init, last);
        DistinctSnocIntro(FormKeys(f, init), GetNamespacedName(f.namespace, last));
      } else {
        assert FormKeys(f, names) == FormKeys(f, init) + [];
      }
    }
  }

  lemma FirstsSnoc<V>(kvs: seq<(string, V)>, k: string, v: V)
    ensures Firsts(kvs + [(k, v)]) == Firsts(kvs) + [k]
  {
    assert (kvs + [(k, v)])[..|kvs|] == kvs;
  }

  /** The keys of the pairs a successful run emits are the form keys of its fields. */
  lemma {:induction false} StepsShape(f: Form, es: Elements, names: seq<string>)
    requires Valid(f) && Steps(f, es, names).Success?
    ensures Firsts(Steps(f, es, names).value) == FormKeys(f, names)
    decreases |names|
  {
    if names != [] {
      var init := names[..|names| - 1];
      var last := names[|names| - 1];
      var step := StepAt(f, es, last);
      assert Steps(f, es, names) == Advance(Steps(f, es, init), step);
      StepsShape(f, es, init);
      StepAtCases(f, es, last);
      var pairs := Steps(f, es, init).value;
      match step {
        case Skip =>
          assert FormKeys(f, names) == FormKeys(f, init) + [];
        case Emit(key, attrs) =>
          FirstsSnoc(pairs, key, attrs);
      }
    }
  }

  /**
   * The keys of the collection `generate` returns: the namespaced names of
   * the fields that have a `form` entry, in schema order.
   */
  lemma GenerateKeys(f: Form, es: Elements)
    requires Valid(f) && GenerateSpec(f, es).Success?
    ensures GenerateSpec(f, es).value.keys == FormKeys(f, f.schema.keys)
  {
    var pairs := Steps(f, es, f.schema.keys).value;
    StepsShape(f, es, f.schema.keys);
    FormKeysDistinct(f, f.schema.keys);
    PutAllKeys(Empty(), pairs);
    WithoutNothing(Firsts(pairs), Empty<Attrs>().entries.Keys);
    assert [] + Firsts(pairs) == Firsts(pairs);
  }

  /**
   * A key is in the collection exactly when it is the namespaced name of a
   * field that has a `form` entry.
   */
  lemma GenerateKeySet(f: Form, es: Elements, k: string)
    requires Valid(f) && GenerateSpec(f, es).Success?
    ensures k in GenerateSpec(f, es).value.entries <==>
      StripNamespace(f.namespace, k).Some? && HasForm(f, StripNamespace(f.namespace, k).value)
  {
    GenerateKeys(f, es);
    var out := GenerateSpec(f, es).value;
    assert k in out.entries <==> k in FormKeys(f, f.schema.keys);
    if k in out.entries {
      FormKeysAreNamespaced(f, f.schema.keys, k);
    }
    if StripNamespace(f.namespace, k).Some? {
      var n := StripNamespace(f.namespace, k).value;
      StripNamespaceInverse(f.namespace, k);
      FormKeysHas(f, f.schema.keys, n);
    }
  }

  /** A schema field appears in the collection exactly when it has a `form` entry. */
  lemma GenerateSkipsFieldsWithoutForm(f: Form, es: Elements, n: string)
    requires Valid(f) && GenerateSpec(f, es).Success?
    ensures GetNamespacedName(f.namespace, n) in GenerateSpec(f, es).value.entries <==> HasForm(f, n)
  {
    GenerateKeySet(f, es, GetNamespacedName(f.namespace, n));
    NamespaceRoundTrip(f.namespace, n);
  }

  /** `names[i]` is the first of the names whose field has a bad type. */
  predicate FirstBad(f: Form, names: seq<string>, i: int)
    requires Valid(f)
  {
    && 0 <= i < |names| && BadType(f, names[i])
    && forall j :: 0 <= j < i ==> !BadType(f, names[j])
  }

  /** A run that fails fails at a field with a bad type, and no earlier field has one. */
  lemma {:induction false} StepsFailureAt(f: Form, es: Elements, names: seq<string>)
    requires Valid(f) && Steps(f, es, names).Failure?
    ensures exists i :: FirstBad(f, names, i) && Steps(f, es, names).error == TypeError(names[i])
    decreases |names|
  {
    var init := names[..|names| - 1];
    var last := names[|names| - 1];
    assert Steps(f, es, names) == Advance(Steps(f, es, init), StepAt(f, es, last));
    StepAtCases(f, es, last);
    if Steps(f, es, init).Failure? {
      StepsFailureAt(f, es, init);
      var i :| FirstBad(f, init, i) && Steps(f, es, init).error == TypeError(init[i]);
      assert names[i] == init[i];
      assert forall j :: 0 <= j < i ==> names[j] == init[j];
      assert FirstBad(f, names, i);
    } else {
      StepsSuccessClean(f, es, init);
      var i := |names| - 1;
      assert forall j :: 0 <= j < i ==> names[j] == init[j];
      assert FirstBad(f, names, i);
    }
  }

  /** A run that succeeds met no field with a bad type. */
  lemma {:induction false} StepsSuccessClean(f: Form, es: Elements, names: seq<string>)
    requires Valid(f) && Steps(f, es, names).Success?
    ensures forall i :: 0 <= i < |names| ==> !BadType(f, names[i])
    decreases |names|
  {
    if names != [] {
      var init := names[..|names| - 1];
      var last := names[|names| - 1];
      assert Steps(f, es, names) == Advance(Steps(f, es, init), StepAt(f, es, last));
      StepAtCases(f, es, last);
      StepsSuccessClean(f, es, init);
      assert forall i :: 0 <= i < |init| ==> names[i] == init[i];
    }
  }

  /** A field with a bad type makes the run fail. */
  lemma {:induction false} StepsBadTypeFails(f: Form, es: Elements, names: seq<string>, i: nat)
    requires Valid(f) && i < |names| && BadType(f, names[i])
    ensures Steps(f, es, names).Failure?
    decreases |names|
  {
    var init := names[..|names| - 1];
    var last := names[|names| - 1];
    assert Steps(f, es, names) == Advance(Steps(f, es, init), StepAt(f, es, last));
    if i < |init| {
      assert init[i] == names[i];
      StepsBadTypeFails(f, es, init, i);
    } else {
      StepAtCases(f, es, last);
    }
  }

  /**
   * `generate` fails exactly when some field with a `form` entry has an
   * array `type`, and the error names the first such field in schema order.
   */
  lemma GenerateFailsExactly(f: Form, es: Elements)
    requires Valid(f)
    ensures GenerateSpec(f, es).Failure? <==> exists i :: 0 <= i < |f.schema.keys| && BadType(f, f.schema.keys[i])
    ensures GenerateSpec(f, es).Failure? ==>
      exists i :: FirstBad(f, f.schema.keys, i) && GenerateSpec(f, es).error == TypeError(f.schema.keys[i])
  {
    var names := f.schema.keys;
    if Steps(f, es, names).Failure? {
      StepsFailureAt(f, es, names);
    } else {
      StepsSuccessClean(f, es, names);
    }
  }

  /** When no field's `type` is an array, `generate` succeeds. */
  lemma ScalarTypesNeverFail(f: Form, es: Elements)
    requires Valid(f)
    requires forall n :: HasForm(f, n) ==> !TypeOf(f, n).Arr?
    ensures GenerateSpec(f, es).Success?
  {
    GenerateFailsExactly(f, es);
  }

  /** Every pair a field emits is among the pairs of a successful run. */
  lemma StepsContains(f: Form, es: Elements, names: seq<string>, i: nat, key: string, attrs: Attrs)
    requires Valid(f) && Steps(f, es, names).Success?
    requires i < |names| && StepAt(f, es, names[i]) == Emit(key, attrs)
    ensures (key, attrs) in Steps(f, es, names).value
  {
    var upto := names[..i + 1];
    assert upto[..i] == names[..i] && upto[i] == names[i];
    StepsPrefixKeeps(f, es, names, i + 1, (key, attrs));
    assert Steps(f, es, upto) == Advance(Steps(f, es, names[..i]), Emit(key, attrs));
    AdvanceKeeps(Steps(f, es, names[..i]), Emit(key, attrs), (key, attrs));
  }

  /** A prefix of a successful run succeeds, and every pair it emits stays in the run. */
  lemma {:induction false} StepsPrefixKeeps(f: Form, es: Elements, names: seq<string>, j: nat, x: (string, Attrs))
    requires Valid(f) && Steps(f, es, names).Success? && j <= |names|
    ensures Steps(f, es, names[..j]).Success?
    ensures x in Steps(f, es, names[..j]).value ==> x in Steps(f, es, names).value
    decreases |names|
  {
    if j == |names| {
      assert names[..j] == names;
    } else {
      var init := names[..|names| - 1];
      assert Steps(f, es, names) == Advance(Steps(f, es, init), StepAt(f, es, names[|names| - 1]));
      AdvanceKeeps(Steps(f, es, init), StepAt(f, es, names[|names| - 1]), x);
      assert init[..j] == names[..j];
      StepsPrefixKeeps(f, es, init, j, x);
    }
  }

  /** One more pass keeps the pairs emitted so far and adds the pass's own. */
  lemma AdvanceKeeps(acc: Result<seq<(string, Attrs)>, FormError>, step: Step, x: (string, Attrs))
    requires Advance(acc, step).Success?
    ensures acc.Success?
    ensures x in acc.value ==> x in Advance(acc, step).value
    ensures step == Emit(x.0, x.1) ==> x in Advance(acc, step).value
  {
  }

  /** For a field with a `form` entry, the collection holds what the field's step emits. */
  lemma GenerateEntry(f: Form, es: Elements, n: string)
    requires Valid(f) && GenerateSpec(f, es).Success? && HasForm(f, n)
    ensures StepAt(f, es, n).Emit?
    ensures GenerateSpec(f, es).value.Get(StepAt(f, es, n).key) == Some(StepAt(f, es, n).attrs)
  {
    var names := f.schema.keys;
    var pairs := Steps(f, es, names).value;
    var i :| 0 <= i < |names| && names[i] == n;
    StepsSuccessClean(f, es, names);
    StepAtCases(f, es, n);
    StepsContains(f, es, names, i, StepAt(f, es, n).key, StepAt(f, es, n).attrs);
    StepsShape(f, es, names);
    FormKeysDistinct(f, names);
    PutAllDistinct(Empty(), pairs, StepAt(f, es, n).key, StepAt(f, es, n).attrs);
  }

  /**
   * What `generate` puts under a field's key: the field's element, with the
   * type defaulted, parsed by the kind its type names, under the namespaced
   * name and with the value stored under the field's own name.
   */
  lemma GenerateValues(f: Form, es: Elements, n: string)
    requires Valid(f) && GenerateSpec(f, es).Success? && HasForm(f, n)
    ensures var element := ElementOf(f.schema.entries[n].form.value);
      var key := GetNamespacedName(f.namespace, n);
      && KindOf(n, element.entries["type"]).Success?
      && GenerateSpec(f, es).value.Get(key)
         == Some(Parse(es, KindOf(n, element.entries["type"]).value, key, element, GetValueForName(f, n)))
  {
    GenerateEntry(f, es, n);
    StepAtCases(f, es, n);
  }

  /** A type that names no element class is parsed as a text input. */
  lemma GenerateUnknownTypeIsText(f: Form, es: Elements, n: string, t: string)
    requires Valid(f) && GenerateSpec(f, es).Success? && HasForm(f, n) && TypeOf(f, n) == Str(t)
    requires forall k :: ClassName(k) != Studly(t)
    ensures var element := ElementOf(f.schema.entries[n].form.value);
      var key := GetNamespacedName(f.namespace, n);
      GenerateSpec(f, es).value.Get(key) == Some(es.parseOther(Text, key, element, GetValueForName(f, n)))
  {
    GenerateValues(f, es, n);
  }

  /** A field's `form` without a `type` (or with a null one) is parsed as a text input. */
  lemma GenerateDefaultTypeIsText(f: Form, es: Elements, n: string)
    requires Valid(f) && GenerateSpec(f, es).Success? && HasForm(f, n)
    requires var form := f.schema.entries[n].form.value; !(form.Has("type") && form.entries["type"] != Null)
    ensures var form := f.schema.entries[n].form.value;
      var key := GetNamespacedName(f.namespace, n);
      GenerateSpec(f, es).value.Get(key)
        == Some(es.parseOther(Text, key, form.Put("type", Str("text")), GetValueForName(f, n)))
  {
    GenerateValues(f, es, n);
    ElementClassFindsEveryKind(Text);
  }

  /**
   * A checkbox field is transformed by the checkbox rules, from the value
   * `getValue` resolves, on the merged attributes, for the value stored under
   * the field's own name.
   */
  lemma GenerateCheckbox(f: Form, es: Elements, n: string, t: string)
    requires Valid(f) && GenerateSpec(f, es).Success? && HasForm(f, n) && TypeOf(f, n) == Str(t)
    requires ElementClass(t) == Checkbox
    ensures var element := ElementOf(f.schema.entries[n].form.value);
      var key := GetNamespacedName(f.namespace, n);
      GenerateSpec(f, es).value.Get(key)
        == Some(CheckboxElement.ApplyTransformations(key, element, es.getValue(key, CheckboxElement.Merged(key, element), GetValueForName(f, n))))
  {
    GenerateValues(f, es, n);
  }

  /** A schema in which no field has a `form` entry gives an empty collection. */
  lemma GenerateNoFormIsEmpty(f: Form, es: Elements)
    requires Valid(f) && forall n :: !HasForm(f, n)
    ensures GenerateSpec(f, es).Success?
    ensures GenerateSpec(f, es).value.keys == []
  {
    ScalarTypesNeverFail(f, es);
    GenerateKeys(f, es);
    FormKeysNone(f, f.schema.keys);
  }

  lemma {:induction false} FormKeysNone(f: Form, names: seq<string>)
    requires forall n :: !HasForm(f, n)
    ensures FormKeys(f, names) == []
    decreases |names|
  {
    if names != [] {
      FormKeysNone(f, names[..|names| - 1]);
    }
  }

  /** Runs over the same names agree when every one of their passes agrees. */
  lemma {:induction false} StepsAgree(f: Form, g: Form, es: Elements, names: seq<string>)
    requires Valid(f) && Valid(g)
    requires forall i :: 0 <= i < |names| ==> StepAt(f, es, names[i]) == StepAt(g, es, names[i])
    ensures Steps(f, es, names) == Steps(g, es, names)
    decreases |names|
  {
    if names != [] {
      var init := names[..|names| - 1];
      assert forall i :: 0 <= i < |init| ==> init[i] == names[i];
      StepsAgree(f, g, es, init);
    }
  }

  /**
   * `generate` reads the data only through `getValueForName` of the schema's
   * fields: two forms with the same schema and namespace whose fields read
   * the same values generate the same result.
   */
  lemma GenerateReadsOnlyFieldValues(f: Form, g: Form, es: Elements)
    requires Valid(f) && g.schema == f.schema && g.namespace == f.namespace
    requires forall n :: n in f.schema.entries ==> GetValueForName(f, n) == GetValueForName(g, n)
    ensures Valid(g)
    ensures GenerateSpec(f, es) == GenerateSpec(g, es)
  {
    StepsAgree(f, g, es, f.schema.keys);
  }

  /**
   * A data entry under a key that is not a field name, such as a field's
   * namespaced name, never reaches the result.
   */
  lemma GenerateIgnoresOtherData(f: Form, es: Elements, k: string, v: Value)
    requires Valid(f) && k !in f.schema.entries
    ensures GenerateSpec(f.(data := f.data[k := v]), es) == GenerateSpec(f, es)
  {
    GenerateReadsOnlyFieldValues(f, f.(data := f.data[k := v]), es);
  }

  /** After `setValue`, the field is read back as the string that was set. */
  lemma ReadAfterSetValue(f: Form, n: string, v: string, m: string)
    ensures GetValueForName(SetValue(f, n, v), n) == Some(Str(v))
    ensures m != n ==> GetValueForName(SetValue(f, n, v), m) == GetValueForName(f, m)
  {
  }

  /** After `setValue` on a field with a `form` entry, `generate` parses that field with the new value. */
  lemma GenerateSeesSetValue(f: Form, es: Elements, n: string, v: string)
    requires Valid(f) && HasForm(f, n) && GenerateSpec(SetValue(f, n, v), es).Success?
    ensures var g := SetValue(f, n, v);
      var element := ElementOf(f.schema.entries[n].form.value);
      var key := GetNamespacedName(f.namespace, n);
      && KindOf(n, element.entries["type"]).Success?
      && GenerateSpec(g, es).value.Get(key)
         == Some(Parse(es, KindOf(n, element.entries["type"]).value, key, element, Some(Str(v))))
  {
    GenerateValues(SetValue(f, n, v), es, n);
  }

  /**
   * After the write `setInputArgument` performs on a schema field, the
   * element `generate` builds for it carries the new argument (for `type`,
   * unless it is null, which the default replaces).
   */
  lemma PutInputArgumentReachesElement(f: Form, n: string, p: string, v: Value)
    requires Valid(f) && n in f.schema.entries && (p == "type" ==> v != Null)
    ensures var g := PutInputArgument(f, n, p, v);
      && HasForm(g, n)
      && ElementOf(g.schema.entries[n].form.value).Get(p) == Some(v)
  {
  }

  /** After `setInputArgument(n, p, v)` on a schema field, the element `generate` builds for it has `p = v`. */
  lemma SetInputArgumentReachesElement(f: Form, n: string, p: string, v: string)
    requires Valid(f) && n in f.schema.entries
    ensures var g := SetInputArgument(f, n, p, v);
      && HasForm(g, n)
      && ElementOf(g.schema.entries[n].form.value).Get(p) == Some(Str(v))
  {
    PutInputArgumentReachesElement(f, n, p, Str(v));
  }

  /**
   * `setInputArgument(n, 'binary', false)` stores the empty string, which is
   * not `false`: the checkbox built from that field is still checked by a
   * value loosely equal to 1.
   */
  lemma BinaryFalseArgumentStillChecks(f: Form, n: string, current: Value)
    requires Valid(f) && n in f.schema.entries
    ensures var r := SetInputArgumentCoerced(f, n, "binary", Bool(false));
      && r.Success?
      && HasForm(r.value, n)
      && var element := ElementOf(r.value.schema.entries[n].form.value);
         && element.Get("binary") == Some(Str(""))
         && (CheckboxElement.MarksChecked(element, current) <==> LooselyEqualsOne(current))
  {
    SetInputArgumentReachesElement(f, n, "binary", "");
  }

  /**
   * The discrepancy in `setOptions`: the option array is refused before any
   * change, where the intended operation stores it as the field's `options`
   * argument, which `generate` then hands to the element.
   */
  lemma SetOptionsFinding(f: Form, n: string, options: Attrs, selected: Option<string>)
    requires Valid(f) && n in f.schema.entries
    ensures SetOptionsAsWritten(f, n, Arr(options), selected) == Failure(TypeError(n))
    ensures var g := SetOptions(f, n, options, selected);
      && HasForm(g, n)
      && ElementOf(g.schema.entries[n].form.value).Get("options") == Some(Arr(options))
  {
    PutInputArgumentReachesElement(f, n, "options", Arr(options));
  }

  /** A one-field schema whose field is a checkbox, with no namespace and the value 1. */
  function CheckboxForm(n: string): (f: Form)
    ensures Valid(f) && HasForm(f, n) && f.namespace == ""
    ensures f.schema.entries[n].form.value == CheckboxElementAttrs()
    ensures GetValueForName(f, n) == Some(Int(1))
  {
    Form(OMap([n], map[n := FieldDef(Some(CheckboxElementAttrs()), Empty())]), map[n := Int(1)], "")
  }

  /** The field's `form` entry: only `type: checkbox`. */
  function CheckboxElementAttrs(): (a: Attrs)
    ensures a.Valid() && a.keys == ["type"] && a.Get("type") == Some(Str("checkbox"))
  {
    OMap(["type"], map["type" := Str("checkbox")])
  }

  /**
   * The checkbox example end to end: when `getValue` returns the stored
   * value, the field comes out with the four defaults in order, its own
   * `type`, and the `checked` marker.
   */
  lemma CheckboxEndToEnd(es: Elements, n: string)
    requires '[' !in n && ']' !in n
    requires forall a :: es.getValue(n, a, Some(Int(1))) == Int(1)
    ensures var f := CheckboxForm(n);
      && GenerateSpec(f, es).Success?
      && GenerateSpec(f, es).value.keys == [n]
      && GenerateSpec(f, es).value.Get(n).Some?
    ensures var r := GenerateSpec(CheckboxForm(n), es).value.entries[n];
      && r.keys == ["class", "name", "id", "binary", "type", "checked"]
      && r.Get("class") == Some(Str("js-icheck"))
      && r.Get("name") == Some(Str(n))
      && r.Get("id") == Some(Str("field_" + n))
      && r.Get("binary") == Some(Bool(true))
      && r.Get("type") == Some(Str("checkbox"))
      && r.Get("checked") == Some(Str("checked"))
  {
    var f := CheckboxForm(n);
    var element := CheckboxElementAttrs();
    ScalarTypesNeverFail(f, es);
    GenerateKeys(f, es);
    assert f.schema.keys == [n];
    assert FormKeys(f, [n]) == FormKeys(f, []) + [n];
    GenerateSkipsFieldsWithoutForm(f, es, n);
    CheckboxEntry(es, n);
    CheckboxOutput(n, element);
  }

  /** The example's field goes through the checkbox transformation with the value 1. */
  lemma CheckboxEntry(es: Elements, n: string)
    requires forall a :: es.getValue(n, a, Some(Int(1))) == Int(1)
    ensures GenerateSpec(CheckboxForm(n), es).Success?
    ensures GenerateSpec(CheckboxForm(n), es).value.Get(n)
      == Some(CheckboxElement.ApplyTransformations(n, CheckboxElementAttrs(), Int(1)))
  {
    var f := CheckboxForm(n);
    var element := CheckboxElementAttrs();
    ScalarTypesNeverFail(f, es);
    assert ElementClass("checkbox") == Checkbox by {
      ElementClassFindsEveryKind(Checkbox);
    }
    assert ElementOf(element) == element && GetNamespacedName(f.namespace, n) == n;
    var current := es.getValue(n, CheckboxElement.Merged(n, element), GetValueForName(f, n));
    assert current == Int(1);
    GenerateCheckbox(f, es, n, "checkbox");
  }

  /** The checkbox transformation of the example's element. */
  lemma CheckboxOutput(n: string, element: Attrs)
    requires '[' !in n && ']' !in n && element == CheckboxElementAttrs()
    ensures var r := CheckboxElement.ApplyTransformations(n, element, Int(1));
      && r.keys == ["class", "name", "id", "binary", "type", "checked"]
      && r.Get("class") == Some(Str("js-icheck"))
      && r.Get("name") == Some(Str(n))
      && r.Get("id") == Some(Str("field_" + n))
      && r.Get("binary") == Some(Bool(true))
      && r.Get("type") == Some(Str("checkbox"))
      && r.Get("checked") == Some(Str("checked"))
  {
    CheckboxOutputKeys(n, element);
    var r := CheckboxElement.ApplyTransformations(n, element, Int(1));
    assert r.Get("id") == Some(Str("field_" + n)) by {
      CheckboxElement.DefaultId(n, element, Int(1));
      CheckboxElement.FieldIdOfPlain(n);
    }
    CheckboxElement.DefaultClass(n, element, Int(1));
    CheckboxElement.DefaultName(n, element, Int(1));
    CheckboxElement.DefaultBinary(n, element, Int(1));
    CheckboxElement.CheckedRule(n, element, Int(1));
    CheckboxElement.OtherAttributesPassThrough(n, element, Int(1), "type");
  }

  lemma CheckboxOutputKeys(n: string, element: Attrs)
    requires element == CheckboxElementAttrs()
    ensures CheckboxElement.ApplyTransformations(n, element, Int(1)).keys
      == ["class", "name", "id", "binary", "type", "checked"]
  {
    assert CheckboxElement.ExtraKeys(element, Int(1)) == ["type", "checked"] by {
      assert Without(["type"], CheckboxElement.DefaultKeySet) == ["type"] by {
        assert ["type"][..0] == [];
      }
      assert CheckboxElement.MarksChecked(element, Int(1));
      assert !element.Has("checked");
    }
    CheckboxElement.ApplyTransformationsKeys(n, element, Int(1));
  }

  /**
   * The namespace example end to end: in namespace `user`, a field `name`
   * with an empty `form` comes out under the single key `user[name]`.
   */
  lemma NamespaceEndToEnd(es: Elements)
    ensures var f := Form(OMap(["name"], map["name" := FieldDef(Some(Empty()), Empty())]), map["name" := Str("Al")], "user");
      && Valid(f)
      && GenerateSpec(f, es).Success?
      && GenerateSpec(f, es).value.keys == ["user[name]"]
  {
    var f := Form(OMap(["name"], map["name" := FieldDef(Some(Empty()), Empty())]), map["name" := Str("Al")], "user");
    assert HasForm(f, "name");
    assert TypeOf(f, "name") == Str("text");
    ScalarTypesNeverFail(f, es);
    GenerateKeys(f, es);
    var names := f.schema.keys;
    assert names[..0] == [];
    NamespaceExample();
    assert FormKeys(f, names) == FormKeys(f, []) + [GetNamespacedName("user", "name")];
  }
}

=== FILE: ordered_maps.dfy ===
/**
 * Insertion-ordered maps with string keys: the shape of a PHP array (and of an
 * Illuminate Collection) whose keys are strings. Writing an existing key keeps
 * its position; writing a new key appends it.
 */
module OrderedMaps {
  import opened Wrappers

  predicate Distinct(ks: seq<string>)
  {
    forall i, j :: 0 <= i < j < |ks| ==> ks[i] != ks[j]
  }

  datatype OMap<V> = OMap(keys: seq<string>, entries: map<string, V>) {

    /** The key order lists every key of the map exactly once. */
    ghost predicate Valid()
    {
      && Distinct(keys)
      && (forall k :: k in entries <==> k in keys)
    }

    predicate Has(k: string)
    {
      k in entries
    }

    function Get(k: string): Option<V>
    {
      if k in entries then Some(entries[k]) else None
    }

    /** `$a[$k] = $v`. */
    function Put(k: string, v: V): (r: OMap<V>)
      requires Valid()
      ensures r.Valid()
      ensures r.Get(k) == Some(v)
      ensures forall j :: j != k ==> r.Get(j) == Get(j)
      ensures k in entries ==> r.keys == keys
      ensures k !in entries ==> r.keys == keys + [k]
    {
      if k in entries then OMap(keys, entries[k := v])
      else OMap(keys + [k], entries[k := v])
    }
  }

  function Empty<V>(): (r: OMap<V>)
    ensures r.Valid()
    ensures r.keys == [] && forall k :: !r.Has(k)
  {
    OMap([], map[])
  }

  /** Writing a key with the value it already holds changes nothing. */
  lemma PutSame<V>(m: OMap<V>, k: string, v: V)
    requires m.Valid() && k in m.entries && m.entries[k] == v
    ensures m.Put(k, v) == m
  {
    assert m.entries[k := v] == m.entries;
  }

  /** The keys of a sequence of key/value pairs, in order. */
  function Firsts<V>(kvs: seq<(string, V)>): (ks: seq<string>)
    ensures |ks| == |kvs|
    ensures forall i :: 0 <= i < |kvs| ==> ks[i] == kvs[i].0
  {
    if kvs == [] then [] else Firsts(kvs[..|kvs| - 1]) + [kvs[|kvs| - 1].0]
  }

  /** The keys of `ks`, in order, that are not in `drop`. */
  function Without(ks: seq<string>, drop: set<string>): (r: seq<string>)
    ensures forall k :: k in r <==> k in ks && k !in drop
    ensures |r| <= |ks|
  {
    if ks == [] then []
    else Without(ks[..|ks| - 1], drop) + (if ks[|ks| - 1] in drop then [] else [ks[|ks| - 1]])
  }

  lemma {:induction false} WithoutAppend(a: seq<string>, b: seq<string>, drop: set<string>)
    ensures Without(a + b, drop) == Without(a, drop) + Without(b, drop)
    decreases |b|
  {
    if b == [] {
      assert a + b == a;
    } else {
      var n := |b| - 1;
      assert (a + b)[..|a + b| - 1] == a + b[..n];
      WithoutAppend(a, b[..n], drop);
    }
  }

  lemma {:induction false} WithoutNothing(ks: seq<string>, drop: set<string>)
    requires forall k :: k in ks ==> k !in drop
    ensures Without(ks, drop) == ks
    decreases |ks|
  {
    if ks != [] {
      var n := |ks| - 1;
      assert ks[..n] + [ks[n]] == ks;
      WithoutNothing(ks[..n], drop);
    }
  }

  lemma {:induction false} WithoutEverything(ks: seq<string>, drop: set<string>)
    requires forall k :: k in ks ==> k in drop
    ensures Without(ks, drop) == []
    decreases |ks|
  {
    if ks != [] {
      WithoutEverything(ks[..|ks| - 1], drop);
    }
  }

  /**
   * Writes the pairs one after the other, as a `foreach` of `$a[$k] = $v`
   * (or of `Collection::put`) does.
   */
  function PutAll<V>(m: OMap<V>, kvs: seq<(string, V)>): (r: OMap<V>)
    requires m.Valid()
    ensures r.Valid()
    decreases |kvs|
  {
    if kvs == [] then m
    else
      var n := |kvs| - 1;
      PutAll(m, kvs[..n]).Put(kvs[n].0, kvs[n].1)
  }

  /** Writing one more pair after a run of writes. */
  lemma PutAllSnoc<V>(m: OMap<V>, kvs: seq<(string, V)>, k: string, v: V)
    requires m.Valid()
    ensures PutAll(m, kvs + [(k, v)]) == PutAll(m, kvs).Put(k, v)
  {
    assert (kvs + [(k, v)])[..|kvs|] == kvs;
  }

  /** The keys after the writes: those of `m` and those written. */
  lemma {:induction false} PutAllHas<V>(m: OMap<V>, kvs: seq<(string, V)>, k: string)
    requires m.Valid()
    ensures k in PutAll(m, kvs).entries <==> k in m.entries || k in Firsts(kvs)
    decreases |kvs|
  {
    if kvs != [] {
      var n := |kvs| - 1;
      assert Firsts(kvs) == Firsts(kvs[..n]) + [kvs[n].0];
      PutAllHas(m, kvs[..n], k);
    }
  }

  /** Last write wins: a key ends up with the value of its last pair. */
  lemma {:induction false} PutAllLastWins<V>(m: OMap<V>, kvs: seq<(string, V)>, i: nat)
    requires m.Valid() && i < |kvs|
    requires forall j :: i < j < |kvs| ==> kvs[j].0 != kvs[i].0
    ensures PutAll(m, kvs).Get(kvs[i].0) == Some(kvs[i].1)
    decreases |kvs|
  {
    var n := |kvs| - 1;
    var prev := PutAll(m, kvs[..n]);
    assert PutAll(m, kvs) == prev.Put(kvs[n].0, kvs[n].1);
    if i < n {
      var init := kvs[..n];
      assert init[i] == kvs[i];
      assert forall j :: i < j < |init| ==> init[j] == kvs[j];
      PutAllLastWins(m, init, i);
      assert kvs[n].0 != kvs[i].0;
    }
  }

  /** When no key is written twice, every pair written is in the result. */
  lemma PutAllDistinct<V>(m: OMap<V>, kvs: seq<(string, V)>, k: string, v: V)
    requires m.Valid() && Distinct(Firsts(kvs)) && (k, v) in kvs
    ensures PutAll(m, kvs).Get(k) == Some(v)
  {
    var i :| 0 <= i < |kvs| && kvs[i] == (k, v);
    var ks := Firsts(kvs);
    assert forall j :: i < j < |kvs| ==> ks[j] != ks[i];
    PutAllLastWins(m, kvs, i);
  }

  /** A key no pair writes keeps the value it had. */
  lemma {:induction false} PutAllElsewhere<V>(m: OMap<V>, kvs: seq<(string, V)>, k: string)
    requires m.Valid() && k !in Firsts(kvs)
    ensures PutAll(m, kvs).Get(k) == m.Get(k)
    decreases |kvs|
  {
    if kvs != [] {
      var n := |kvs| - 1;
      assert Firsts(kvs)[..n] == Firsts(kvs[..n]);
      PutAllElsewhere(m, kvs[..n], k);
    }
  }

  lemma DistinctSnoc(ks: seq<string>, k: string)
    requires Distinct(ks + [k])
    ensures Distinct(ks) && k !in ks
  {
    var s := ks + [k];
    forall i, j | 0 <= i < j < |ks| ensures ks[i] != ks[j] {
      assert ks[i] == s[i] && ks[j] == s[j];
    }
    forall j | 0 <= j < |ks| ensures ks[j] != k {
      assert ks[j] == s[j] && k == s[|ks|];
    }
  }

  lemma DistinctSnocIntro(ks: seq<string>, k: string)
    requires Distinct(ks) && k !in ks
    ensures Distinct(ks + [k])
  {
    var s := ks + [k];
    forall i, j | 0 <= i < j < |s| ensures s[i] != s[j] {
      if j < |ks| {
        assert s[i] == ks[i] && s[j] == ks[j];
      } else {
        assert s[i] == ks[i] && s[j] == k;
      }
    }
  }

  lemma WithoutSnoc(ks: seq<string>, k: string, drop: set<string>)
    ensures Without(ks + [k], drop) == Without(ks, drop) + (if k in drop then [] else [k])
  {
    assert (ks + [k])[..|ks|] == ks;
  }

  /**
   * Regrouping a concatenation of key lists, stated apart so that proofs
   * about key order use it without reasoning about sequences in their own
   * context.
   */
  lemma ConcatAssoc(a: seq<string>, b: seq<string>, c: seq<string>)
    ensures a + (b + c) == (a + b) + c
  {
  }

  /** Keys already present keep their place; new keys follow in write order. */
  lemma {:induction false} PutAllKeys<V>(m: OMap<V>, kvs: seq<(string, V)>)
    requires m.Valid() && Distinct(Firsts(kvs))
    ensures PutAll(m, kvs).keys == m.keys + Without(Firsts(kvs), m.entries.Keys)
    decreases |kvs|
  {
    if kvs == [] {
      assert Firsts(kvs) == [];
      assert m.keys + [] == m.keys;
      assert PutAll(m, kvs) == m;
    } else {
      var n := |kvs| - 1;
      var k := kvs[n].0;
      var ks := Firsts(kvs[..n]);
      DistinctSnoc(ks, k);
      PutAllKeys(m, kvs[..n]);
      WithoutSnoc(ks, k, m.entries.Keys);
      var prev := PutAll(m, kvs[..n]);
      PutAllHas(m, kvs[..n], k);
      assert PutAll(m, kvs).keys == prev.keys + (if k in m.entries then [] else [k]);
      assert Firsts(kvs) == ks + [k];
      var tail := if k in m.entries then [] else [k];
      ConcatAssoc(m.keys, Without(ks, m.entries.Keys), tail);
    }
  }

  /** The entries of a map as pairs, in key order. */
  function Items<V>(m: OMap<V>): (kvs: seq<(string, V)>)
    requires m.Valid()
    ensures |kvs| == |m.keys|
    ensures forall i :: 0 <= i < |kvs| ==> kvs[i] == (m.keys[i], m.entries[m.keys[i]])
    ensures Firsts(kvs) == m.keys
  {
    var kvs := seq(|m.keys|, i requires 0 <= i < |m.keys| => (m.keys[i], m.entries[m.keys[i]]));
    assert Firsts(kvs) == m.keys;
    kvs
  }

  lemma MergeValues<V>(a: OMap<V>, b: OMap<V>)
    requires a.Valid() && b.Valid()
    ensures forall k :: k in b.entries ==> PutAll(a, Items(b)).Get(k) == Some(b.entries[k])
    ensures forall k :: k !in b.entries ==> PutAll(a, Items(b)).Get(k) == a.Get(k)
  {
    var kvs := Items(b);
    forall k | k in b.entries
      ensures PutAll(a, kvs).Get(k) == Some(b.entries[k])
    {
      var i :| 0 <= i < |b.keys| && b.keys[i] == k;
      PutAllLastWins(a, kvs, i);
    }
    forall k | k !in b.entries
      ensures PutAll(a, kvs).Get(k) == a.Get(k)
    {
      PutAllElsewhere(a, kvs, k);
    }
  }

  /**
   * `array_merge($a, $b)` on string keys: the keys of `a` in their order, then
   * the keys only `b` has in theirs; on a shared key the value of `b` wins.
   */
  function Merge<V>(a: OMap<V>, b: OMap<V>): (r: OMap<V>)
    requires a.Valid() && b.Valid()
    ensures r.Valid()
    ensures r.keys == a.keys + Without(b.keys, a.entries.Keys)
    ensures forall k :: k in b.entries ==> r.Get(k) == Some(b.entries[k])
    ensures forall k :: k !in b.entries ==> r.Get(k) == a.Get(k)
  {
    PutAllKeys(a, Items(b));
    MergeValues(a, b);
    PutAll(a, Items(b))
  }

  /** Two valid maps with the same key order and the same lookups are equal. */
  lemma Extensional<V>(m: OMap<V>, m': OMap<V>)
    requires m.Valid() && m'.Valid()
    requires m.keys == m'.keys
    requires forall k :: m.Get(k) == m'.Get(k)
    ensures m == m'
  {
    forall k | k in m.entries
      ensures k in m'.entries && m.entries[k] == m'.entries[k]
    {
      assert m.Get(k) == m'.Get(k);
    }
    assert m.entries == m'.entries;
  }

  lemma PrefixDisjoint<V>(a: OMap<V>, b: OMap<V>, rest: seq<string>)
    requires a.Valid() && b.Valid()
    requires b.keys == a.keys + rest
    ensures forall k :: k in rest ==> k !in a.entries.Keys
  {
    forall i | 0 <= i < |rest| ensures rest[i] !in a.keys {
      forall j | 0 <= j < |a.keys| ensures a.keys[j] != rest[i] {
        assert b.keys[j] == a.keys[j] && b.keys[|a.keys| + i] == rest[i];
      }
    }
  }

  lemma MergeUnderPrefixKeys<V>(a: OMap<V>, b: OMap<V>, rest: seq<string>)
    requires a.Valid() && b.Valid()
    requires b.keys == a.keys + rest
    ensures Merge(a, b).keys == b.keys
  {
    var A := a.entries.Keys;
    PrefixDisjoint(a, b, rest);
    WithoutAppend(a.keys, rest, A);
    WithoutEverything(a.keys, A);
    WithoutNothing(rest, A);
    assert [] + rest == rest;
  }

  lemma MergeSameKeysLookups<V>(a: OMap<V>, b: OMap<V>)
    requires a.Valid() && b.Valid()
    requires Merge(a, b).keys == b.keys
    ensures forall k :: Merge(a, b).Get(k) == b.Get(k)
  {
    assert forall k :: k in b.entries ==> Merge(a, b).Get(k) == b.Get(k);
    assert forall k :: k !in b.entries ==> Merge(a, b).Get(k) == b.Get(k);
  }

  /**
   * Merging a map underneath one that already lists all of its keys first,
   * in the same order, changes nothing.
   */
  lemma MergeUnderPrefix<V>(a: OMap<V>, b: OMap<V>, rest: seq<string>)
    requires a.Valid() && b.Valid()
    requires b.keys == a.keys + rest
    ensures Merge(a, b) == b
  {
    MergeUnderPrefixKeys(a, b, rest);
    MergeSameKeysLookups(a, b);
    Extensional(Merge(a, b), b);
  }
}

=== FILE: strings.dfy ===
/** The two string helpers the form generator calls. */
module Strings {

  /** `str_replace(c, r, s)` for a one-character search string. */
  function ReplaceChar(s: string, c: char, r: string): (t: string)
    ensures forall x :: x in t ==> (x in s && x != c) || x in r
    ensures forall x :: x in s && x != c ==> x in t
  {
    if s == [] then []
    else (if s[0] == c then r else [s[0]]) + ReplaceChar(s[1..], c, r)
  }

  lemma {:induction false} ReplaceCharAppend(a: string, b: string, c: char, r: string)
    ensures ReplaceChar(a + b, c, r) == ReplaceChar(a, c, r) + ReplaceChar(b, c, r)
    decreases |a|
  {
    if a == [] {
      assert a + b == b;
    } else {
      assert (a + b)[1..] == a[1..] + b;
      ReplaceCharAppend(a[1..], b, c, r);
    }
  }

  /** The delimiters after which PHP's `ucwords` upper-cases a letter. */
  predicate IsWordDelimiter(c: char)
  {
    c == ' ' || c == '\t' || c == '\r' || c == '\n' || c == 11 as char || c == 12 as char
  }

  function ToUpper(c: char): char
  {
    if 'a' <= c <= 'z' then (c as int - 32) as char else c
  }

  /** Characters `Str::studly` neither drops nor treats as word starts. */
  predicate IsPlain(c: char)
  {
    c != '-' && c != '_' && !IsWordDelimiter(c)
  }

  /**
   * `Str::studly` from position `s` on: '-' and '_' become spaces, `ucwords`
   * upper-cases each letter at a word start, and every space is removed.
   */
  function StudlyFrom(s: string, wordStart: bool): (t: string)
    ensures |t| <= |s|
    ensures forall i :: 0 <= i < |t| ==> t[i] != ' ' && t[i] != '-' && t[i] != '_'
  {
    if s == [] then []
    else
      var c := if s[0] == '-' || s[0] == '_' then ' ' else s[0];
      var head := if c == ' ' then [] else if wordStart then [ToUpper(c)] else [c];
      head + StudlyFrom(s[1..], IsWordDelimiter(c))
  }

  /**
   * Laravel's `Str::studly`, which turns a type name such as "check_box" into
   * a class name: no separator survives, and a name that starts with a plain
   * character starts with that character upper-cased.
   */
  function Studly(s: string): (t: string)
    ensures |t| <= |s|
    ensures forall i :: 0 <= i < |t| ==> t[i] != ' ' && t[i] != '-' && t[i] != '_'
    ensures |s| > 0 && IsPlain(s[0]) ==> |t| > 0 && t[0] == ToUpper(s[0])
  {
    StudlyFrom(s, true)
  }

  lemma {:induction false} StudlyFromPlain(s: string)
    requires forall i :: 0 <= i < |s| ==> IsPlain(s[i])
    ensures StudlyFrom(s, false) == s
    decreases |s|
  {
    if s != [] {
      StudlyFromPlain(s[1..]);
    }
  }

  /** A single word keeps its letters and only its first one is upper-cased. */
  lemma StudlyOfWord(s: string)
    requires |s| > 0
    requires forall i :: 0 <= i < |s| ==> IsPlain(s[i])
    ensures Studly(s) == [ToUpper(s[0])] + s[1..]
  {
    StudlyFromPlain(s[1..]);
  }

  /** Plain characters after the start of a word are copied unchanged. */
  lemma {:induction false} StudlyFromPlainPrefix(x: string, rest: string)
    requires forall i :: 0 <= i < |x| ==> IsPlain(x[i])
    ensures StudlyFrom(x + rest, false) == x + StudlyFrom(rest, false)
    decreases |x|
  {
    if x == [] {
      assert x + rest == rest;
    } else {
      assert (x + rest)[0] == x[0] && (x + rest)[1..] == x[1..] + rest;
      StudlyFromPlainPrefix(x[1..], rest);
      assert x == [x[0]] + x[1..];
    }
  }

  /**
   * A separator ends a word: `Str::studly` of a word, a '-', '_' or space,
   * and the rest is the studly word followed by the studly rest.
   */
  lemma StudlyJoin(a: string, sep: char, b: string)
    requires |a| > 0 && forall i :: 0 <= i < |a| ==> IsPlain(a[i])
    requires sep == '-' || sep == '_' || sep == ' '
    ensures Studly(a + [sep] + b) == Studly(a) + Studly(b)
  {
    StudlyOfWord(a);
    assert (a + [sep] + b)[1..] == a[1..] + ([sep] + b);
    StudlyFromPlainPrefix(a[1..], [sep] + b);
    assert ([sep] + b)[1..] == b;
  }
}

=== FILE: values.dfy ===
/**
 * Attribute values as PHP holds them in the schema, the data and the
 * generated attribute maps, with the two pieces of PHP's implicit type
 * juggling the form generator relies on: the coercion of a `string`
 * parameter and the loose comparison `== 1`.
 */
module Values {
  import opened Wrappers
  import opened OrderedMaps

  /** The PHP values an attribute or a data entry may hold (floats and objects are not modelled). */
  datatype Value = Null | Bool(b: bool) | Int(i: int) | Str(s: string) | Arr(items: OMap<Value>)

  /** An attribute map: a PHP array with string keys. */
  type Attrs = OMap<Value>

  predicate IsDigit(c: char)
  {
    '0' <= c <= '9'
  }

  predicate AllDigits(s: string)
  {
    forall i :: 0 <= i < |s| ==> IsDigit(s[i])
  }

  /** The number a string of decimal digits denotes. */
  function DigitsValue(ds: string): nat
    requires AllDigits(ds)
  {
    if ds == [] then 0
    else 10 * DigitsValue(ds[..|ds| - 1]) + (ds[|ds| - 1] as int - '0' as int)
  }

  /**
   * The integer an integer-numeric PHP string denotes: an optional sign
   * followed by one or more decimal digits. Any other string is not one.
   */
  function IntegerString(s: string): Option<int>
  {
    if |s| > 0 && (s[0] == '+' || s[0] == '-') then
      if |s| > 1 && AllDigits(s[1..]) then
        var d: int := DigitsValue(s[1..]);
        Some(if s[0] == '-' then -d else d)
      else None
    else if |s| > 0 && AllDigits(s) then Some(DigitsValue(s))
    else None
  }

  function DigitChar(d: nat): (c: char)
    requires d < 10
    ensures IsDigit(c) && c as int - '0' as int == d
  {
    ('0' as int + d) as char
  }

  /** The decimal spelling of a natural number, as PHP converts an int to a string. */
  function NatToString(n: nat): (s: string)
    ensures |s| > 0 && AllDigits(s)
    ensures DigitsValue(s) == n
    decreases n
  {
    if n < 10 then [DigitChar(n)]
    else
      var s := NatToString(n / 10) + [DigitChar(n % 10)];
      assert s[..|s| - 1] == NatToString(n / 10);
      s
  }

  function IntToString(i: int): string
  {
    if i < 0 then "-" + NatToString(-i) else NatToString(i)
  }

  /** Converting an int to a string and reading it back gives the int again. */
  lemma IntToStringRoundTrip(i: int)
    ensures IntegerString(IntToString(i)) == Some(i)
  {
    if i < 0 {
      assert IntToString(i)[1..] == NatToString(-i);
    } else {
      assert IntToString(i)[0] != '+' && IntToString(i)[0] != '-' by {
        assert IsDigit(NatToString(i)[0]);
      }
    }
  }

  /**
   * The value a user function receives for a parameter declared `string`
   * when the caller passes `v`, outside strict-types mode: scalars are
   * converted, while null and arrays raise a TypeError (None here).
   */
  function StringArgument(v: Value): (r: Option<string>)
    ensures r.None? <==> v.Null? || v.Arr?
    ensures v.Str? ==> r == Some(v.s)
    ensures v.Int? ==> r.Some? && IntegerString(r.value) == Some(v.i)
  {
    match v
    case Null => None
    case Arr(_) => None
    case Str(s) => Some(s)
    case Int(i) => IntToStringRoundTrip(i); Some(IntToString(i))
    case Bool(b) => Some(if b then "1" else "")
  }

  /**
   * PHP's loose comparison `v == 1`, restricted to the values modelled here:
   * an int compares by value, a bool compares with `true`, null compares as
   * `false`, an array is never equal to an int, and a string compares
   * numerically when it is an integer-numeric string.
   */
  function LooselyEqualsOne(v: Value): (r: bool)
    ensures r ==> v.Bool? || v.Int? || v.Str?
    ensures v.Int? ==> (r <==> v.i == 1)
    ensures v.Bool? ==> r == v.b
    ensures v.Str? ==> (r <==> SpellsOne(v.s))
  {
    match v
    case Null => false
    case Bool(b) => b
    case Int(i) => i == 1
    case Str(s) => IntegerStringOne(s); IntegerString(s) == Some(1)
    case Arr(_) => false
  }

  /** Some zeros followed by a single "1". */
  predicate ZerosThenOne(s: string)
  {
    && |s| > 0
    && s[|s| - 1] == '1'
    && forall i :: 0 <= i < |s| - 1 ==> s[i] == '0'
  }

  /** The strings that spell the integer one: "1", "01", "+1", "+001", ... */
  predicate SpellsOne(s: string)
  {
    ZerosThenOne(s) || (|s| > 0 && s[0] == '+' && ZerosThenOne(s[1..]))
  }

  lemma {:induction false} DigitsValueZero(ds: string)
    requires AllDigits(ds)
    ensures DigitsValue(ds) == 0 <==> forall i :: 0 <= i < |ds| ==> ds[i] == '0'
    decreases |ds|
  {
    if ds != [] {
      var n := |ds| - 1;
      DigitsValueZero(ds[..n]);
      assert forall i :: 0 <= i < n ==> ds[..n][i] == ds[i];
    }
  }

  lemma DigitsValueOne(ds: string)
    requires AllDigits(ds)
    ensures DigitsValue(ds) == 1 <==> ZerosThenOne(ds)
  {
    if ds != [] {
      var n := |ds| - 1;
      DigitsValueZero(ds[..n]);
      assert forall i :: 0 <= i < n ==> ds[..n][i] == ds[i];
    }
  }

  /** A string reads as the integer one exactly when it spells one. */
  lemma IntegerStringOne(s: string)
    ensures IntegerString(s) == Some(1) <==> SpellsOne(s)
  {
    if |s| > 0 && (s[0] == '+' || s[0] == '-') {
      if |s| > 1 && AllDigits(s[1..]) {
        DigitsValueOne(s[1..]);
      }
      if ZerosThenOne(s[1..]) {
        assert AllDigits(s[1..]);
        DigitsValueOne(s[1..]);
      }
    } else if |s| > 0 {
      if AllDigits(s) {
        DigitsValueOne(s);
      }
      if ZerosThenOne(s) {
        assert AllDigits(s);
        DigitsValueOne(s);
      }
    }
  }

  /** The strings "1" and "0" as the checkbox compares them. */
  lemma OneAndZero()
    ensures LooselyEqualsOne(Str("1"))
    ensures !LooselyEqualsOne(Str("0"))
  {
    assert SpellsOne("1");
    assert !ZerosThenOne("0") && "0"[0] != '+';
  }
}

=== FILE: wrappers.dfy ===
/** Optional values and fallible results, as used throughout the model. */
module Wrappers {

  /** A value that may be missing (PHP's `null` return, an unset key). */
  datatype Option<+T> = None | Some(value: T) {
    function GetOr(default: T): T
    {
      match this
      case Some(v) => v
      case None => default
    }
  }

  /** Either a computed value or the error the PHP code would throw. */
  datatype Result<+R, +E> = Success(value: R) | Failure(error: E)
}
